=== FILE: README.md ===
# Home automation backend — a Dafny model

This project models the decision logic of the Django backend of a small
home-automation app. Users own rooms, integrations and connectors. Devices
live in rooms, and device endpoints bind a device to a connector address:
an MQTT topic, a PLC tag and so on. The model covers four parts of the
backend:

- **Device commands.** `POST /devices/<id>/command` picks the device's
  output endpoint and normalises the requested state or set-point. It
  computes the raw value to send and records the new state on the device.
- **Ownership and accounts.** This covers the owner-resolution chain of
  the `IsOwner` permission and the ownership checks made when a device or
  endpoint is created. It also covers registration, login validation, and
  the create/update paths of rooms and devices.
- **The MQTT worker.** The worker chooses the topics to subscribe to. It
  applies an incoming reading to every device bound to the topic, with
  linear scaling and unit fill-in. It then broadcasts the updated device to
  the room's WebSocket group.
- **The data model and its serializers.** This covers closed choice sets,
  field defaults, `(owner, slug)` uniqueness and the endpoint ordering. It
  also covers the effective background URL of a room and which fields a
  client may write or read.

The database is an immutable record `Store.Db` of maps keyed by primary
key. The exception is the endpoint table, a sequence kept in the model's
`(device, direction, id)` order. Every view is a pure function from a
database and a request to `Views.Reply(db, result)`. An error result leaves
the database unchanged. Things the code gets from outside are parameters:

- the current time `now`;
- `json.loads` as `parseJson`;
- Python's `float(str)` and `str(float)` as the fields of `Json.Runtime`;
- whether a channel layer is configured, as `hasLayer`;
- `authenticate`;
- the username normalization of `create_user`, as `normalize`;
- `request.build_absolute_uri`.

Modules, one per file:

- `Wrappers`: the `Option` and `Result` types.
- `Text`: `str.lower`, `str.strip`, `str.startswith`, `str(int)` and string `<`.
- `Json`: decoded JSON values with Python's `dict.get`, truthiness and
  `str()`.
- `Models`: the records, choice sets and defaults.
- `Store`: the database, endpoint ordering and visibility.
- `Serializers`: output shapes, write validation and writable fields.
- `Permissions`: `IsOwner`.
- `Views`: register and the room, device and endpoint create/update paths.
- `DeviceCommand`: the command action and endpoint resolution.
- `MqttWorker`: `on_connect`, `on_message`, `broadcast_device_update` and
  the consumer's group.

## Model

| member | source | states |
|---|---|---|
| Json.Get | backend/automation/management/commands/run_mqtt_worker.py:100-101 | `dict.get` on a decoded object is absent iff no member has the key. Otherwise it returns a value stored under that key. |
| Json.GetPresent | backend/automation/views.py:249-251 | `data.get(k)` treated as "given" only when present and not `null`; exactly the `None`/`null` cases count as absent |
| Json.FloatOf | backend/automation/views.py:280-286 | `float(v)` of a bool is 1.0 or 0.0, of an int the int itself, of a float the float itself, and of text whatever Python's parser gives. It fails for `null`, lists and objects. |
| Text.NatText | backend/automation/management/commands/run_mqtt_worker.py:168 | `str(n)` is a non-empty run of decimal digits with no leading zero |
| Text.Strip | backend/automation/serializers.py:53-67 | `str.strip()`, which a model CharField applies to its input: the result starts and ends with a non-space character, and it is empty iff the input is all whitespace |
| Text.StripIsTrimmedInfix | backend/automation/serializers.py:53-67 | the stripped text is the part of the input between a run of leading and a run of trailing whitespace |
| Text.NatTextInjective | backend/automation/management/commands/run_mqtt_worker.py:168 | distinct room ids print differently, so group names never collide |
| Text.IntTextIsOne | backend/automation/views.py:257-258 | `str(i) == "1"` holds for the int 1 and no other |
| Text.LowerIntText | backend/automation/views.py:257 | lower-casing a printed int changes nothing |
| Models.DeviceType.FromKey | backend/automation/models.py:202-208 | a device type is accepted exactly when the text is one of the five keys, and it maps back to that key |
| Models.DeviceKind.FromKey | backend/automation/models.py:218-222 | the device kind takes only the values sensor, actuator and hybrid |
| Models.SignalType.FromKey | backend/automation/models.py:224-228 | the signal type takes only the values analog, digital and string |
| Models.DeviceIntegration.FromKey | backend/automation/models.py:210-216 | the device integration hint takes values only from its closed set |
| Models.Provider.FromKey | backend/automation/models.py:72-77 | the integration provider takes values only from its closed set |
| Models.ConnectorType.FromKey | backend/automation/models.py:134-141 | the connector type takes values only from its closed set |
| Models.Direction.FromKey | backend/automation/models.py:373-376 | the endpoint direction is exactly input or output |
| Models.Room.EffectiveBackgroundUrl | backend/automation/models.py:56-64 | An uploaded image with a URL wins whatever the external URL is. Otherwise the result is the external URL, or nothing when that is blank. |
| Models.NewRoom | backend/automation/models.py:5-43 | a new room is active, with no image, blank description and URL, created and updated now, and no effective background |
| Models.NewDevice | backend/automation/models.py:245-349 | A new device defaults to kind sensor, signal analog and integration local. It is off at position (10, 10) with 1 decimal place, active, and has no reading yet. |
| Models.NewEndpoint | backend/automation/models.py:405-445 | a new endpoint has scale 1, offset 0, is primary, has blank true/false values and no integration |
| Store.DirectionOrder | backend/automation/models.py:448 | ordering by the stored direction text puts input before output |
| Store.EndpointBeforeTransitive | backend/automation/models.py:448 | the `(device, direction, id)` order is transitive |
| Store.EndpointBeforeTotal | backend/automation/models.py:448 | the `(device, direction, id)` order is total on distinct ids |
| Store.EarlierOfSameClassHasLowerId | backend/automation/models.py:448 | among endpoints of one device and direction, table order is id order |
| Store.FirstOfSameClassHasLowestId | backend/automation/models.py:448 | the first endpoint of a filtered device/direction set has the lowest id |
| Store.InsertEndpoint | backend/automation/models.py:447-448 | saving an endpoint adds exactly that row to the table (as a multiset) |
| Store.InsertKeepsOrder | backend/automation/models.py:448 | inserting a fresh endpoint keeps the table in Meta order |
| Store.InsertKeepsDistinctIds | backend/automation/models.py:363-445 | inserting a fresh endpoint keeps primary keys distinct |
| Store.Filter | backend/automation/views.py:536 | a queryset filter keeps exactly the matching rows, in table order |
| Store.EndpointsOf | backend/automation/views.py:531 | `device.endpoints` holds exactly the endpoints whose device is this one |
| Permissions.HasObjectPermission | backend/automation/views.py:107-125 | The owner is resolved as `obj.owner`, else `obj.room.owner`, else `obj.device.room.owner`. Access is granted iff that owner is the request user. |
| Permissions.VisibleDeviceIsPermitted | backend/automation/views.py:181-184 | every device in the user's queryset passes `IsOwner` |
| Permissions.VisibleRoomIsPermitted | backend/automation/views.py:146-147 | every room in the user's queryset passes `IsOwner` |
| Serializers.BackgroundImageUrl | backend/automation/serializers.py:69-77 | The result is `None` iff the effective URL is empty. With a request, a URL not starting with "http" is made absolute. Otherwise the URL is returned unchanged. |
| Serializers.UploadedImageWins | backend/automation/models.py:62-63 | with an uploaded image, the output URL ignores `background_image_url` |
| Serializers.SerializeUser | backend/automation/serializers.py:14-17 | a user serializes with its own id and username |
| Serializers.SerializeRoom | backend/automation/serializers.py:39-67 | a room serializes with its own id and slug, given its owner exists |
| Serializers.BackgroundImageIsWriteOnly | backend/automation/serializers.py:45-50 | rooms with the same effective URL serialize identically: the uploaded file itself never appears in output |
| Serializers.SerializeIntegration | backend/automation/serializers.py:80-104 | an integration serializes with its own id, given its owner exists |
| Serializers.SerializeLink | backend/automation/serializers.py:113 | a nested integration is present in output iff the record links one |
| Serializers.SerializeConnector | backend/automation/serializers.py:111-145 | a connector serializes with its own id and shows an integration iff it links one |
| Serializers.PasswordIsWriteOnly | backend/automation/serializers.py:143-145 | the connector password never affects the output |
| Serializers.SerializeEndpoint | backend/automation/serializers.py:148-185 | an endpoint serializes with its id, device and nested connector |
| Serializers.SerializeEndpoints | backend/automation/serializers.py:206 | a device's endpoint list serializes one entry per endpoint |
| Serializers.SerializeDevice | backend/automation/serializers.py:192-247 | a device serializes, with its nested room, iff its room and owner exist |
| Serializers.SerializeDeviceSucceeds | backend/automation/serializers.py:192-247 | in a consistent database every device serializes |
| Serializers.ValidateLogin | backend/automation/serializers.py:24-32 | login fails with "Invalid username or password" iff authentication fails. Otherwise the given attrs come back unchanged with the user added. |
| Serializers.RequiredError | backend/automation/serializers.py:53-67 | a required field is an error exactly when a full write (create or PUT) leaves it out; a partial write (PATCH) requires nothing |
| Serializers.TextError | backend/automation/serializers.py:53-67 | A required text field errs when a full write leaves it out. A given text errs when it is empty or only whitespace. |
| Serializers.PkError | backend/automation/serializers.py:200-204 | a primary-key field errs when a full write leaves it out or when it names no row |
| Serializers.RoomWriteErrors | backend/automation/serializers.py:53-67 | room input is valid iff a full write gives name and slug and neither given value is blank after trimming |
| Serializers.ApplyRoomWrite | backend/automation/serializers.py:45-67 | A room write cannot change id, owner, created_at or background_image_url. A given name, slug or description is stored trimmed, and a given image or is_active is stored as sent. Untouched fields stay as they were. The save stamps `updated_at`. |
| Serializers.DeviceWriteErrors | backend/automation/serializers.py:199-247 | device input is valid iff a full write gives the required fields, the given name is not blank after trimming, and `room_id` names a room |
| Serializers.ApplyDeviceWrite | backend/automation/serializers.py:199-247 | A device write cannot change id, created_at or the last reading. The room changes only through `room_id`, and a given name is stored trimmed. An empty write only restamps `updated_at`. |
| Serializers.BuildDevice | backend/automation/serializers.py:192-247 | a created device carries its given fields, its name trimmed, and the model defaults for every omitted one, with no reading |
| Serializers.EndpointWriteErrors | backend/automation/serializers.py:148-185 | endpoint input is valid iff a full write gives device, connector_id, direction and address, the address is not blank after trimming, and the keys resolve |
| Serializers.ApplyEndpointWrite | backend/automation/serializers.py:148-185 | connector and integration of an endpoint change only through `connector_id` and `integration_id`; a given address is stored trimmed |
| Serializers.BuildEndpoint | backend/automation/serializers.py:148-185 | a created endpoint carries its given fields, its address trimmed, and the model defaults for every omitted one |
| Serializers.ApplyConnectorWrite | backend/automation/serializers.py:111-145 | Connector id, owner and created_at are fixed. The integration changes only through `integration_id`. The password is writable and stored trimmed. |
| Views.Register | backend/automation/views.py:38-58 | A missing or empty username or password, or a username taken as sent, gives 400 and leaves the database alone. A name whose normalized form is taken fails in the database (500). Otherwise one user is added under the normalized name, with its token. Other users, their tokens and every other table are unchanged. |
| Views.CreateRoom | backend/automation/views.py:149-155 | A room is created for the requesting user iff the input is valid and the trimmed slug is free for that owner; a clash is a 500 integrity error. The new room holds the trimmed name, slug and description, the sent image and is_active, and the defaults for the rest. Only the new room is added, every other table is unchanged, and slugs stay unique per owner. |
| Views.UpdateRoom | backend/automation/views.py:157-163 | PUT and PATCH find only the user's own rooms (404 otherwise). Invalid input gives 400. A valid write succeeds iff the resulting slug is free for the owner, and a clash is a 500 integrity error. The stored room is the write applied to the old one, and only that room changes. Id and owner are kept, and slugs stay unique per owner. |
| Views.CreateDevice | backend/automation/views.py:186-194 | A device is created iff the input is valid and its room is the user's. Otherwise nothing is saved and the answer is a 400 for invalid input or a refusal for a foreign room. The refusal is a 403, or a 500 if `permissions.PermissionDenied` does not resolve. On success the stored device is the payload over the model defaults, and only that device is added. |
| Views.UpdateDeviceAsWritten | backend/automation/views.py:205-214 | PUT and PATCH need the device to be the user's (404 otherwise). The write is accepted iff its input is valid. The stored device is the write applied to the old one, so the last reading and created_at are kept. Only that device changes. |
| Views.UpdateMovesDeviceToForeignRoom | backend/automation/views.py:205-214 | a PATCH with another user's `room_id` succeeds and hands the device to that user |
| Views.UpdateDevice | backend/automation/views.py:186-214 | An update that moves the device to a room the user does not own is refused. A successful update stores the write applied to the old device, changes only that device, and keeps it the user's. |
| Views.EndpointOwnershipError | backend/automation/views.py:436-458 | An endpoint is permitted iff the user owns the device's room, the connector, and the integration when one is given. The first failing check names the error. |
| Views.CreateEndpoint | backend/automation/views.py:430-467 | An endpoint is saved iff its input is valid and the ownership checks pass. The saved row is the payload over the endpoint defaults. Exactly that row is added, the table stays ordered, and every other table is unchanged. |
| DeviceCommand.FirstWhere | backend/automation/views.py:536 | `.filter(...).first()` is absent iff nothing matches; otherwise it is the first match in table order |
| DeviceCommand.ResolvePrimaryOutputEndpoint | backend/automation/views.py:527-541 | The result is a primary output if one exists, else the first output, else none. It is never an input, and no output ahead of it is skipped except a non-primary one passed over for a primary. |
| DeviceCommand.ResolvedHasLowestId | backend/automation/views.py:536-541 | the chosen endpoint has the lowest id among the outputs of its kind |
| DeviceCommand.CommandEndpoint | backend/automation/views.py:233-243 | the command endpoint is one of the device's outputs, and exists iff the device has an output |
| DeviceCommand.StateWords | backend/automation/views.py:256-258 | What `str(state).lower()` makes of each JSON kind. Text means on iff it lower-cases to on, true, 1 or yes. `true` means on. The int 1 means on and every other int means off. A float means off, given that floats print as Python prints them. Lists and objects mean off. `str(None)` is no on word either, but the view never reaches it: a null `state` counts as absent (`NullStateCountsAsAbsent`). |
| DeviceCommand.MarkedTextIsNoOnWord | backend/automation/views.py:257-258 | text with a '.', '+' or '-' in it, as every printed float has, is none of the on words |
| DeviceCommand.BoolStateWords | backend/automation/views.py:257-258 | `str(True).lower()` is "true" (on) and `str(False).lower()` is "false" (off) |
| DeviceCommand.ContainerStateWords | backend/automation/views.py:257-258 | a list or object `state` never means on |
| DeviceCommand.DesiredOn | backend/automation/views.py:254-263 | `state` decides if given. Otherwise the truthiness of `is_on` decides if given. Otherwise the device toggles. |
| DeviceCommand.NullStateCountsAsAbsent | backend/automation/views.py:256-263 | a JSON null `state` counts as not sent, so `is_on` or the toggle decides |
| DeviceCommand.OnText | backend/automation/views.py:266 | the on value is `true_value`, or "1" when blank |
| DeviceCommand.OffText | backend/automation/views.py:267 | the off value is `false_value`, or "0" when blank |
| DeviceCommand.RequestData | backend/automation/views.py:245 | `request.data or {}`: a falsy body reads as no fields and an object as its members; any other body cannot be read |
| DeviceCommand.EffectiveScale | backend/automation/views.py:290 | the scale used is never zero, and is the endpoint's own scale when that is non-zero |
| DeviceCommand.InverseScaled | backend/automation/views.py:288-292 | the raw value maps back to the target through the effective scale and offset |
| DeviceCommand.Decide | backend/automation/views.py:245-328 | With no endpoint the answer is the 400 error. With an endpoint, the command succeeds iff the device is digital or `target_value` is present and numeric; otherwise a missing value and a non-numeric one give their own 400s. Only last_value, last_value_raw, last_updated_at and is_on change, and is_on only for digital devices. |
| DeviceCommand.Command | backend/automation/views.py:217-332 | Another user's device gives 404, and a device without an output gives 400 "No output endpoint configured for this device.". A truthy body that is not an object gives 500. Otherwise the answer is exactly `Decide`'s: its success, saved on this device alone, or a 400 carrying its error text. Every error leaves the database alone. |
| DeviceCommand.DigitalCommandSucceeds | backend/automation/views.py:254-328 | A digital command always succeeds. `is_on` becomes the desired state, `last_value_raw` the matching on/off text and `last_value` 1.0 or 0.0. The device stays in its room and bound to the same endpoint. |
| DeviceCommand.SetpointCommandSucceeds | backend/automation/views.py:273-328 | A command to a non-digital device with an output and a numeric `target_value` succeeds. `last_value` becomes the target, and the raw setpoint is the target scaled back through the endpoint. `last_value_raw` is that setpoint's text. `is_on` and the room are kept, and only this device changes. |
| DeviceCommand.ToggleTwiceRestores | backend/automation/views.py:262-263 | a digital command with neither `state` nor `is_on` flips `is_on`, and a second one restores it |
| DeviceCommand.ExplicitStateIsIdempotent | backend/automation/views.py:256-258 | repeating a command with an explicit `state` leaves `is_on` where the first one put it |
| DeviceCommand.StateOverridesIsOn | backend/automation/views.py:256-260 | once `state` is given, adding `is_on` changes nothing |
| MqttWorker.SubscribableEndpoints | backend/automation/management/commands/run_mqtt_worker.py:54-57 | exactly the input endpoints on MQTT connectors are subscribed |
| MqttWorker.Dedup | backend/automation/management/commands/run_mqtt_worker.py:59 | dropping repeats keeps every topic, once |
| MqttWorker.SubscriptionTopicsAsWritten | backend/automation/management/commands/run_mqtt_worker.py:54-60 | the query as written yields one topic per subscribable endpoint, in table order |
| MqttWorker.DuplicateSubscriptions | backend/automation/management/commands/run_mqtt_worker.py:54-67 | two MQTT input endpoints on one topic make that topic appear twice |
| MqttWorker.SubscriptionTopics | backend/automation/management/commands/run_mqtt_worker.py:53-68 | Each address of an MQTT input endpoint is subscribed exactly once and nothing else is. The list is empty iff there is no such endpoint. |
| MqttWorker.GroupNameInjective | backend/automation/management/commands/run_mqtt_worker.py:168 | different rooms broadcast to different groups |
| MqttWorker.ConsumerGroup | backend/automation/consumers.py:6-7 | the consumer's group is "room_" followed by the digits of the URL exactly as given, whatever digits they are |
| MqttWorker.ConsumerHearsRoom | backend/automation/consumers.py:6-7 | a consumer joins the worker's group for a room iff the URL digits are that room id in canonical decimal |
| MqttWorker.LeadingZeroHearsNothing | backend/home_automation_backend/asgi.py:21 | a URL room id with a leading zero joins a group no broadcast reaches |
| MqttWorker.Broadcast | backend/automation/management/commands/run_mqtt_worker.py:135-177 | A broadcast is sent iff there is a channel layer, the device has a room and it serializes. It goes to "room_<room_id>" as "device_update" and carries the device's id, reading and unit. |
| MqttWorker.BoundEndpoints | backend/automation/management/commands/run_mqtt_worker.py:77-84 | a topic binds exactly the MQTT input endpoints whose address is the topic, in table order |
| MqttWorker.ReadBackRoundTrip | backend/automation/management/commands/run_mqtt_worker.py:106 | Reading back a commanded raw value gives the target iff the scale is non-zero or the target equals the offset. A zero scale is replaced by 1 on the way out but not on the way in. |
| MqttWorker.FilledUnit | backend/automation/management/commands/run_mqtt_worker.py:111-112 | the unit is filled from a truthy payload unit only when the device has none; an existing unit is never overwritten |
| MqttWorker.FilledUnitIdempotent | backend/automation/management/commands/run_mqtt_worker.py:111-112 | filling the unit twice is the same as once |
| MqttWorker.Reading | backend/automation/management/commands/run_mqtt_worker.py:104-121 | a reading keeps the device's id and room |
| MqttWorker.ReadingOverrides | backend/automation/management/commands/run_mqtt_worker.py:103-121 | a second endpoint's reading of the same message overrides the first |
| MqttWorker.LastFor | backend/automation/management/commands/run_mqtt_worker.py:103-104 | the last bound endpoint of a device is absent iff none is bound to it, and no later one is |
| MqttWorker.ApplyReadings | backend/automation/management/commands/run_mqtt_worker.py:103-121 | applying readings adds or removes no device, and a device with no endpoint among them is left as it was |
| MqttWorker.LastReadingWins | backend/automation/management/commands/run_mqtt_worker.py:103-121 | each device ends with the reading of its last bound endpoint; unbound devices are untouched |
| MqttWorker.SerializesAlike | backend/automation/management/commands/run_mqtt_worker.py:159-166 | serializing succeeds alike for two versions of a device with the same id and room |
| MqttWorker.Sent | backend/automation/management/commands/run_mqtt_worker.py:133-149 | at most one broadcast per bound endpoint; none without a channel layer |
| MqttWorker.SentToRoomGroups | backend/automation/management/commands/run_mqtt_worker.py:168-177 | every broadcast is a "device_update" of a bound device to its room's group |
| MqttWorker.SentForEveryEndpoint | backend/automation/management/commands/run_mqtt_worker.py:133-177 | when every bound device has a room and serializes, each endpoint yields one broadcast |
| MqttWorker.NumericValue | backend/automation/management/commands/run_mqtt_worker.py:100-106 | a value is taken iff the payload is an object whose "value" is a number or bool; the value is the int or float itself, or 1.0/0.0 for a bool |
| MqttWorker.OnMessage | backend/automation/management/commands/run_mqtt_worker.py:70-133 | An unbound topic is skipped, and a bound one with invalid JSON is skipped. A message is applied iff it is bound, parses, and carries a numeric "value". |
| MqttWorker.UnboundDevicesUntouched | backend/automation/management/commands/run_mqtt_worker.py:77-84 | a device not bound to the topic is left exactly as it was |
| MqttWorker.BoundDeviceTakesReading | backend/automation/management/commands/run_mqtt_worker.py:105-121 | A bound device gets `last_value = scale·value + offset` from its last endpoint, the payload text and the time. An existing unit stays, and only those four fields change. |
| MqttWorker.MessagesTargetRoomGroups | backend/automation/management/commands/run_mqtt_worker.py:133-177 | every broadcast of a message is a "device_update" for a bound device, sent to that device's room group |
| MqttWorker.BoundDevicesExist | backend/automation/management/commands/run_mqtt_worker.py:83-104 | every bound endpoint's device exists |
| MqttWorker.LastReadingHasHighestId | backend/automation/management/commands/run_mqtt_worker.py:103 | the reading that wins is that of the bound endpoint with the highest id |
| MqttWorker.ConsistentIsSerializable | backend/automation/serializers.py:192-247 | in a consistent database every device serializes |
| MqttWorker.EveryReadingIsBroadcast | backend/automation/management/commands/run_mqtt_worker.py:133-177 | when all bound devices are in rooms, an applied message is broadcast once per bound endpoint |

## Left out

- `login`, `logout` and `me` (backend/automation/views.py:63-94) are left out. They are thin wrappers around Django's session and token machinery. The login rule itself is `Serializers.ValidateLogin`.
- `dashboard_summary` and `IntegrationViewSet.summary` are left out. They only count rows, and their exception catch-all has no stated behaviour.
- `IntegrationViewSet` and `ConnectorViewSet` `perform_create`/`perform_update` are not modelled as views. They save with `owner=request.user` and check nothing. Their field rules are `Serializers.ApplyConnectorWrite`.
- `DeviceEndpointViewSet.perform_update` is not modelled. Like the device update, it checks no ownership of a new device, connector or integration.
- Deletes and list/retrieve views are left out. They are framework defaults over the querysets, and the querysets are `Store.DeviceVisible` and `Store.RoomVisible`.
- `max_length` limits, slug character validation and JSON field validation are left out. The model checks only presence, blankness and foreign-key existence.
- Password hashing, token generation, `authenticate` and `build_absolute_uri` are parameters or opaque values.
- Timestamps are opaque integers supplied as `now`.
- The `endpoints is None` branch of `_resolve_primary_output_endpoint` is left out. A device always has its reverse relation.
- Floating point is left out. Scales, offsets and readings are exact reals, so NaN, infinities and rounding are outside the model. Python's `float(str)` and `str(float)` are parameters.
- Json.FloatOf: does not model the OverflowError that `float()` raises for an int beyond the float range. In the command view (backend/automation/views.py:281-286) only TypeError and ValueError are caught, so the real answer is a 500. In the MQTT callback (backend/automation/management/commands/run_mqtt_worker.py:106) nothing is caught, so no device is updated. The model converts every int exactly in both places.
- DeviceCommand.StateWords: the float case holds for runtimes that meet `Json.FormatsFloatsLikePython`. This is a property of Python's `str(float)` on finite floats, assumed of the parameter and not derived.
- Store.Sorted: endpoints are ordered by device id, then direction, then id. The database orders the `device` key by the Device Meta ordering (room, name). The two differ only in the order across different devices. Most properties above are per device, but two state a cross-device order that is the model's order, not the database's: the topic list of `MqttWorker.SubscriptionTopicsAsWritten` and the message order of `MqttWorker.Sent`. The set of topics and the messages per device do not depend on it.
- `permissions.PermissionDenied` may not exist as an attribute of DRF's `permissions` module, in which case the real response is a 500 rather than a 403. The model records only "rejected, nothing saved".
- A duplicate `(owner, slug)` reaches the database as an integrity error, because the serializer has no uniqueness validator while `owner` is read-only. The model answers an error and saves nothing.
- A JSON payload that is not an object makes `data.get` raise in the MQTT callback. The model treats this as a skipped message (`NotAnObject`); no device is changed either way.
- MqttWorker.OnMessage: takes a single `now` for the whole message. The source calls `timezone.now()` once per bound endpoint (backend/automation/management/commands/run_mqtt_worker.py:109), so real timestamps of one message may differ slightly between devices.
- Views.Register: the Unicode NFKC normalization `create_user` applies is the parameter `normalize`; the model does not define it.
- Views.Register: takes the `username` and `password` fields, so it does not model a request body that is not a JSON object. For a list or text body `request.data.get` raises AttributeError (backend/automation/views.py:39), and the real answer is a 500. It also does not model a non-text field value, which the source passes on to the query and `create_user` as given.
- Whitespace trimming covers the characters Python's `str.isspace` accepts, listed by code point in `Text.IsSpace`.
- The UTF-8 decoding of MQTT payloads with ignored errors is left out. The payload is given as text.
- A failing `group_send` or serializer exception is left out. The model has no exceptions, so a failed broadcast is the same as one not sent.
- The MQTT client loop, the asynchronous consumer, ASGI routing, the simulators and the admin are network and framework plumbing, not logic.
- DeviceCommand.Command returns the updated device record and the applied raw value, not the serialized response body.
- MqttWorker.EveryReadingIsBroadcast requires `MqttWorker.Serializable` rather than full `Store.Consistent`. `MqttWorker.ConsistentIsSerializable` shows that the second implies the first.
- MqttWorker.MessagesTargetRoomGroups requires that each device is stored under its own id. `Store.Consistent` states this.
- Views.CreateEndpoint requires the endpoint table to be sorted with distinct ids and a fresh id. This is the representation invariant of the model's table, not a demand on callers of the view.
- Views.Register does not state the user count as a number. It states the key set, which is the same fact.

## Findings

The `.distinct()` call shows that `on_connect` means to subscribe to each address once. The code does not, and the model follows the code (row 1).

| source | as written | input that shows it | evidently intended | confidence | as-written member | corrected member |
|---|---|---|---|---|---|---|
| backend/automation/management/commands/run_mqtt_worker.py:54-60 | `.values_list("address").distinct()` on a model whose Meta ordering is `(device, direction, id)`. Django adds the ordering columns to `SELECT DISTINCT`, so rows differing only in id are all kept. | two MQTT input endpoints (two devices) on topic `home/t`: the topic list is `["home/t", "home/t"]` and the client subscribes twice | each address subscribed once (`.order_by()` before `.distinct()`) | medium, not executed | MqttWorker.SubscriptionTopicsAsWritten (shown by MqttWorker.DuplicateSubscriptions) | MqttWorker.SubscriptionTopics |
| backend/automation/views.py:205-214 | `perform_update` saves whatever `room_id` the client sends, while `perform_create` (186-194) checks the room's owner | user 1 PATCHes their device with `room_id` of user 2's room: the update succeeds and the device becomes user 2's | the create-time room-ownership check applied to updates too | high, not executed | Views.UpdateDeviceAsWritten (shown by Views.UpdateMovesDeviceToForeignRoom) | Views.UpdateDevice |

=== FILE: command.dfy ===
/** `DeviceViewSet.command` and `_resolve_primary_output_endpoint`
    (`views.py`): turning a command payload into the raw value the device's
    output endpoint would be written with, and the device state shown back
    to the user. */
module DeviceCommand {
  import opened Wrappers
  import Text
  import Json
  import opened Models
  import opened Store
  import Permissions
  import Views

  // ---------------------------------------------------------------------
  // Endpoint resolution
  // ---------------------------------------------------------------------

  /** `.filter(keep).first()` over rows in table order. */
  function FirstWhere(eps: seq<DeviceEndpoint>, keep: DeviceEndpoint -> bool): (r: Option<DeviceEndpoint>)
    ensures r.None? <==> forall k :: 0 <= k < |eps| ==> !keep(eps[k])
    ensures r.Some? ==> exists i :: 0 <= i < |eps| && eps[i] == r.value && keep(r.value)
                                  && forall j :: 0 <= j < i ==> !keep(eps[j])
  {
    if |eps| == 0 then None
    else if keep(eps[0]) then Some(eps[0])
    else
      var r := FirstWhere(eps[1..], keep);
      assert r.Some? ==> exists i :: 1 <= i < |eps| && eps[i] == r.value && keep(r.value)
                                  && forall j :: 0 <= j < i ==> !keep(eps[j]) by {
        if r.Some? {
          var i :| 0 <= i < |eps| - 1 && eps[1..][i] == r.value && keep(r.value)
                   && forall j :: 0 <= j < i ==> !keep(eps[1..][j]);
          assert forall j :: 1 <= j < i + 1 ==> eps[j] == eps[1..][j - 1];
        }
      }
      r
  }

  predicate IsOutput(e: DeviceEndpoint) {
    e.direction == Output
  }

  predicate IsPrimaryOutput(e: DeviceEndpoint) {
    e.direction == Output && e.isPrimary
  }

  /** `_resolve_primary_output_endpoint` over a device's endpoints: the
      first primary output, else the first output, else nothing. */
  function ResolvePrimaryOutputEndpoint(eps: seq<DeviceEndpoint>): (r: Option<DeviceEndpoint>)
    ensures r.Some? ==> r.value in eps && r.value.direction == Output
    ensures r.None? <==> forall k :: 0 <= k < |eps| ==> eps[k].direction != Output
    ensures (exists k :: 0 <= k < |eps| && IsPrimaryOutput(eps[k])) ==> r.Some? && r.value.isPrimary
    ensures r.Some? ==> exists i :: (0 <= i < |eps| && eps[i] == r.value &&
              forall j :: 0 <= j < i ==> !IsOutput(eps[j]) || (!eps[j].isPrimary && r.value.isPrimary))
  {
    var primary := FirstWhere(eps, IsPrimaryOutput);
    if primary.Some? then primary else FirstWhere(eps, IsOutput)
  }

  /** On a device's endpoints in table order, the resolved endpoint has the
      lowest id of its kind: of all primary outputs when there is one, of
      all outputs otherwise. */
  lemma ResolvedHasLowestId(eps: seq<DeviceEndpoint>, device: DeviceId)
    requires Sorted(eps)
    requires forall k :: 0 <= k < |eps| ==> eps[k].device == device
    ensures var r := ResolvePrimaryOutputEndpoint(eps);
      r.Some? ==> forall k :: 0 <= k < |eps| && IsOutput(eps[k]) && (r.value.isPrimary ==> eps[k].isPrimary) ==>
                    r.value.id <= eps[k].id
  {
    var r := ResolvePrimaryOutputEndpoint(eps);
    if r.Some? {
      var i :| 0 <= i < |eps| && eps[i] == r.value
               && forall j :: 0 <= j < i ==> !IsOutput(eps[j]) || (!eps[j].isPrimary && r.value.isPrimary);
      forall k | 0 <= k < |eps| && IsOutput(eps[k]) && (r.value.isPrimary ==> eps[k].isPrimary)
        ensures r.value.id <= eps[k].id
      {
        if k > i {
          assert EndpointBefore(eps[i], eps[k]);
          DirectionOrder(eps[i].direction, eps[k].direction);
        }
      }
    }
  }

  /** The endpoints of the device the command is for, as the view sees them. */
  function CommandEndpoint(db: Db, device: DeviceId): (r: Option<DeviceEndpoint>)
    ensures r.Some? ==> r.value in db.endpoints && r.value.device == device && r.value.direction == Output
    ensures r.None? <==> forall e :: e in db.endpoints && e.device == device ==> e.direction != Output
  {
    ResolvePrimaryOutputEndpoint(EndpointsOf(db, device))
  }

  // ---------------------------------------------------------------------
  // Payload interpretation
  // ---------------------------------------------------------------------

  /** Words that switch a digital device on, compared after lower-casing. */
  const OnWords: set<string> := {"on", "true", "1", "yes"}

  /** `str(state).lower() in ("on", "true", "1", "yes")`. */
  predicate StateMeansOn(state: Json.Value, rt: Json.Runtime) {
    Text.Lower(Json.PyStr(state, rt)) in OnWords
  }

  /** What `str(state).lower()` makes of each kind of JSON value. A null
      `state` never gets here in the view: it counts as not sent
      (`NullStateCountsAsAbsent`); the null case below is only a fact
      about `str(None)`. */
  lemma StateWords(state: Json.Value, rt: Json.Runtime)
    ensures state.Str? ==> (StateMeansOn(state, rt) <==> Text.Lower(state.s) in OnWords)
    ensures state.Bool? ==> (StateMeansOn(state, rt) <==> state.b)
    ensures state.Int? ==> (StateMeansOn(state, rt) <==> state.i == 1)
    ensures state.Float? && Json.FormatsFloatsLikePython(rt) ==> !StateMeansOn(state, rt)
    ensures state.Null? || state.Array? || state.Object? ==> !StateMeansOn(state, rt)
  {
    match state
    case Bool(b) => BoolStateWords(b, rt);
    case Int(i) =>
      Text.LowerIntText(i);
      Text.IntTextIsOne(i);
    case Str(_) =>
    case Float(x) =>
      if Json.FormatsFloatsLikePython(rt) {
        MarkedTextIsNoOnWord(rt.formatFloat(x));
      }
    case _ => ContainerStateWords(state, rt);
  }

  /** Text with a '.', '+' or '-' in it is no on word, in any case. */
  lemma MarkedTextIsNoOnWord(t: string)
    requires '.' in t || '+' in t || '-' in t
    ensures Text.Lower(t) !in OnWords
  {
    var i :| 0 <= i < |t| && t[i] in {'.', '+', '-'};
    var l := Text.Lower(t);
    assert l[i] == t[i];
    assert l != "on" && l != "true" && l != "1" && l != "yes";
  }

  /** `str(True)` is "True", which lower-cases to an on word; "False" does not. */
  lemma BoolStateWords(b: bool, rt: Json.Runtime)
    ensures StateMeansOn(Json.Bool(b), rt) <==> b
  {
    var t := Text.Lower(Json.PyStr(Json.Bool(b), rt));
    if b { assert t == "true"; } else { assert t[0] == 'f'; }
  }

  /** `None`, lists and dicts print as something that is not an on word. */
  lemma ContainerStateWords(state: Json.Value, rt: Json.Runtime)
    requires state.Null? || state.Array? || state.Object?
    ensures !StateMeansOn(state, rt)
  {
    var t := Text.Lower(Json.PyStr(state, rt));
    assert |t| > 0 && t[0] in {'n', '[', '{'};
  }

  /** The state a digital command asks for: `state` first, then the
      truthiness of `is_on`, otherwise the opposite of the current state. */
  function DesiredOn(d: Device, payload: seq<(string, Json.Value)>, rt: Json.Runtime): (on: bool)
    ensures Json.GetPresent(payload, "state").Some? ==>
              (on <==> StateMeansOn(Json.GetPresent(payload, "state").value, rt))
    ensures Json.GetPresent(payload, "state").None? && Json.GetPresent(payload, "is_on").Some? ==>
              (on <==> Json.Truthy(Json.GetPresent(payload, "is_on").value))
    ensures Json.GetPresent(payload, "state").None? && Json.GetPresent(payload, "is_on").None? ==>
              on == !d.isOn
  {
    var state := Json.GetPresent(payload, "state");
    var isOn := Json.GetPresent(payload, "is_on");
    if state.Some? then StateMeansOn(state.value, rt)
    else if isOn.Some? then Json.Truthy(isOn.value)
    else !d.isOn
  }

  // ---------------------------------------------------------------------
  // The command
  // ---------------------------------------------------------------------

  /** The raw value that would be written to the endpoint: a mapped string
      for digital devices, a number for the others. */
  datatype Raw = RawText(text: string) | RawNumber(x: real)

  /** `str(raw_value)`. */
  function RawString(raw: Raw, rt: Json.Runtime): string {
    match raw
    case RawText(t) => t
    case RawNumber(x) => rt.formatFloat(x)
  }

  /** The text written for "on": `true_value`, or "1" when blank. */
  function OnText(ep: DeviceEndpoint): (t: string)
    ensures t != ""
    ensures ep.trueValue != "" ==> t == ep.trueValue
  {
    if ep.trueValue == "" then "1" else ep.trueValue
  }

  /** The text written for "off": `false_value`, or "0" when blank. */
  function OffText(ep: DeviceEndpoint): (t: string)
    ensures t != ""
    ensures ep.falseValue != "" ==> t == ep.falseValue
  {
    if ep.falseValue == "" then "0" else ep.falseValue
  }

  /** `endpoint.scale or 1.0`: a zero scale is replaced, so it never divides by zero. */
  function EffectiveScale(ep: DeviceEndpoint): (s: real)
    ensures s != 0.0
    ensures ep.scale != 0.0 ==> s == ep.scale
  {
    if ep.scale == 0.0 then 1.0 else ep.scale
  }

  /** The raw setpoint for an engineering value: the inverse of the
      endpoint's scaling. */
  function InverseScaled(ep: DeviceEndpoint, target: real): (raw: real)
    ensures EffectiveScale(ep) * raw + ep.offset == target
  {
    var scale := EffectiveScale(ep);
    var offset := ep.offset;
    if scale != 0.0 then (target - offset) / scale else target
  }

  datatype CommandError = NoOutputEndpoint | TargetValueRequired | TargetValueNotNumeric {
    function Detail(): string {
      match this
      case NoOutputEndpoint => "No output endpoint configured for this device."
      case TargetValueRequired => "target_value is required for non-digital devices."
      case TargetValueNotNumeric => "target_value must be numeric."
    }
  }

  /** A successful command: the updated device, the endpoint used, the
      engineering value and the raw value. */
  datatype Applied = Applied(device: Device, endpoint: DeviceEndpoint, engineering: real, raw: Raw)

  /** The decision part of `command`, given the resolved endpoint. */
  function Decide(d: Device, ep: Option<DeviceEndpoint>, payload: seq<(string, Json.Value)>,
                  rt: Json.Runtime, now: Timestamp): (r: Result<Applied, CommandError>)
    ensures ep.None? ==> r == Err(NoOutputEndpoint)
    ensures ep.Some? && d.signalType == Digital ==> r.Ok?
    ensures ep.Some? ==> (r.Ok? <==> || d.signalType == Digital
                                     || (&& Json.GetPresent(payload, "target_value").Some?
                                         && Json.FloatOf(Json.GetPresent(payload, "target_value").value, rt).Some?))
    ensures ep.Some? && d.signalType != Digital ==>
              (r == Err(TargetValueRequired) <==> Json.GetPresent(payload, "target_value").None?)
    ensures ep.Some? && d.signalType != Digital ==>
              (r == Err(TargetValueNotNumeric) <==>
                 Json.GetPresent(payload, "target_value").Some?
                 && Json.FloatOf(Json.GetPresent(payload, "target_value").value, rt).None?)
    // Only the four saved fields change, and they agree with the command.
    ensures r.Ok? ==> && r.value.device.(lastValue := d.lastValue, lastValueRaw := d.lastValueRaw,
                                         lastUpdatedAt := d.lastUpdatedAt, isOn := d.isOn) == d
                      && r.value.device.lastValue == Some(r.value.engineering)
                      && r.value.device.lastValueRaw == RawString(r.value.raw, rt)
                      && r.value.device.lastUpdatedAt == Some(now)
                      && ep == Some(r.value.endpoint)
    ensures r.Ok? && d.signalType == Digital ==>
              && r.value.device.isOn == DesiredOn(d, payload, rt)
              && r.value.engineering == (if r.value.device.isOn then 1.0 else 0.0)
              && r.value.raw == RawText(if r.value.device.isOn then OnText(ep.value) else OffText(ep.value))
    ensures r.Ok? && d.signalType != Digital ==>
              && r.value.device.isOn == d.isOn
              && Some(r.value.engineering) == Json.FloatOf(Json.GetPresent(payload, "target_value").value, rt)
              && r.value.raw == RawNumber(InverseScaled(ep.value, r.value.engineering))
  {
    if ep.None? then Err(NoOutputEndpoint)
    else
      var endpoint := ep.value;
      if d.signalType == Digital then
        var on := DesiredOn(d, payload, rt);
        var raw := RawText(if on then OnText(endpoint) else OffText(endpoint));
        var engineering := if on then 1.0 else 0.0;
        Ok(Applied(d.(lastValue := Some(engineering), lastValueRaw := RawString(raw, rt),
                      lastUpdatedAt := Some(now), isOn := engineering == 1.0),
                   endpoint, engineering, raw))
      else
        var target := Json.GetPresent(payload, "target_value");
        if target.None? then Err(TargetValueRequired)
        else
          match Json.FloatOf(target.value, rt)
          case None => Err(TargetValueNotNumeric)
          case Some(engineering) =>
            var raw := RawNumber(InverseScaled(endpoint, engineering));
            Ok(Applied(d.(lastValue := Some(engineering), lastValueRaw := RawString(raw, rt),
                          lastUpdatedAt := Some(now)),
                       endpoint, engineering, raw))
  }

  /** `request.data or {}`: a falsy body reads as an empty dict, an object
      as its members; any other truthy body (a list, a number, text) has no
      `.get`, and the view fails with an AttributeError. */
  function RequestData(body: Json.Value): (r: Option<seq<(string, Json.Value)>>)
    ensures !Json.Truthy(body) ==> r == Some([])
    ensures body.Object? ==> r == Some(body.members)
    ensures r.None? <==> Json.Truthy(body) && !body.Object?
  {
    if !Json.Truthy(body) then Some([])
    else if body.Object? then Some(body.members)
    else None
  }

  /** `POST /devices/{id}/command/` with request body `body`: look the
      device up in the user's list, resolve its endpoint, read the body,
      decide, and save the device on success. */
  function Command(db: Db, user: UserId, id: DeviceId, body: Json.Value,
                   rt: Json.Runtime, now: Timestamp): (r: Views.Reply<Applied>)
    ensures r.result.Err? ==> r.db == db
    ensures !DeviceVisible(db, user, id) ==> r.result == Err(Views.NotFound)
    ensures DeviceVisible(db, user, id) && CommandEndpoint(db, id).None? ==>
              r.result == Err(Views.BadRequest(NoOutputEndpoint.Detail()))
    ensures DeviceVisible(db, user, id) && CommandEndpoint(db, id).Some? && RequestData(body).None? ==>
              r.result == Err(Views.Unhandled)
    ensures RequestData(body).Some? && r.result.Err? ==> r.result.error.Status() in {400, 404}
    ensures r.result.Ok? ==> DeviceVisible(db, user, id) && RequestData(body).Some?
    ensures r.result.Ok? ==> Decide(db.devices[id], CommandEndpoint(db, id), RequestData(body).value, rt, now)
                             == Ok(r.result.value)
    ensures r.result.Ok? ==> r.db == db.(devices := db.devices[id := r.result.value.device])
    ensures DeviceVisible(db, user, id) && CommandEndpoint(db, id).Some? && RequestData(body).Some? ==>
              var decided := Decide(db.devices[id], CommandEndpoint(db, id), RequestData(body).value, rt, now);
              && (decided.Ok? ==> r.result == Ok(decided.value))
              && (decided.Err? ==> r.result == Err(Views.BadRequest(decided.error.Detail())))
  {
    if !DeviceVisible(db, user, id) then Views.Reply(db, Err(Views.NotFound))
    else
      var d := db.devices[id];
      var ep := CommandEndpoint(db, id);
      Permissions.VisibleDeviceIsPermitted(db, user, id);
      if !Permissions.HasObjectPermission(db, user, Permissions.DeviceObj(d)) then
        Views.Reply(db, Err(Views.Forbidden("You do not have permission to perform this action.")))
      else if ep.None? then
        Views.Reply(db, Err(Views.BadRequest(NoOutputEndpoint.Detail())))
      else
        match RequestData(body)
        case None => Views.Reply(db, Err(Views.Unhandled))
        case Some(payload) =>
          var decided := Decide(d, ep, payload, rt, now);
          if decided.Err? then
            Views.Reply(db, Err(Views.BadRequest(decided.error.Detail())))
          else
            Views.Reply(db.(devices := db.devices[id := decided.value.device]), Ok(decided.value))
  }

  // ---------------------------------------------------------------------
  // Properties across commands
  // ---------------------------------------------------------------------

  /** A command to a visible digital device with an output endpoint
      succeeds, sets the state the payload asks for, writes the matching
      raw text, and leaves the lookup of the next command unchanged. */
  lemma DigitalCommandSucceeds(db: Db, user: UserId, id: DeviceId, payload: seq<(string, Json.Value)>,
                               rt: Json.Runtime, now: Timestamp)
    requires DeviceVisible(db, user, id) && db.devices[id].signalType == Digital
    requires CommandEndpoint(db, id).Some?
    ensures var r := Command(db, user, id, Json.Object(payload), rt, now);
            var d, d' := db.devices[id], r.db.devices[id];
            var ep := CommandEndpoint(db, id).value;
            && r.result.Ok?
            && r.db == db.(devices := db.devices[id := d'])
            && d'.isOn == DesiredOn(d, payload, rt)
            && d'.lastValueRaw == (if d'.isOn then OnText(ep) else OffText(ep))
            && d'.lastValue == Some(if d'.isOn then 1.0 else 0.0)
            && d'.roomId == d.roomId && d'.signalType == Digital
            && DeviceVisible(r.db, user, id)
            && CommandEndpoint(r.db, id) == CommandEndpoint(db, id)
  {
    var a := Decide(db.devices[id], CommandEndpoint(db, id), payload, rt, now);
    assert a.Ok?;
    var r := Command(db, user, id, Json.Object(payload), rt, now);
    assert r.db == db.(devices := db.devices[id := a.value.device]);
    assert EndpointsOf(r.db, id) == EndpointsOf(db, id);
  }

  /** A command to a visible non-digital device with an output endpoint and
      a numeric `target_value` succeeds: the device reads the target, the
      raw setpoint is the target scaled back, and the on/off state stays. */
  lemma SetpointCommandSucceeds(db: Db, user: UserId, id: DeviceId, payload: seq<(string, Json.Value)>,
                                rt: Json.Runtime, now: Timestamp)
    requires DeviceVisible(db, user, id) && db.devices[id].signalType != Digital
    requires CommandEndpoint(db, id).Some?
    requires Json.GetPresent(payload, "target_value").Some?
    requires Json.FloatOf(Json.GetPresent(payload, "target_value").value, rt).Some?
    ensures var r := Command(db, user, id, Json.Object(payload), rt, now);
            var d, d' := db.devices[id], r.db.devices[id];
            var ep := CommandEndpoint(db, id).value;
            var target := Json.FloatOf(Json.GetPresent(payload, "target_value").value, rt).value;
            && r.result.Ok?
            && r.db == db.(devices := db.devices[id := d'])
            && r.result.value.raw == RawNumber(InverseScaled(ep, target))
            && d'.lastValue == Some(target)
            && d'.lastValueRaw == rt.formatFloat(InverseScaled(ep, target))
            && d'.lastUpdatedAt == Some(now)
            && d'.isOn == d.isOn && d'.roomId == d.roomId
            && DeviceVisible(r.db, user, id)
            && CommandEndpoint(r.db, id) == CommandEndpoint(db, id)
  {
    var ep := CommandEndpoint(db, id).value;
    var target := Json.FloatOf(Json.GetPresent(payload, "target_value").value, rt).value;
    var a := Decide(db.devices[id], CommandEndpoint(db, id), payload, rt, now);
    assert a.Ok? && a.value.engineering == target;
    assert a.value.raw == RawNumber(InverseScaled(ep, target));
    assert RequestData(Json.Object(payload)) == Some(payload);
    var r := Command(db, user, id, Json.Object(payload), rt, now);
    assert r.result == Ok(a.value);
    assert r.db == db.(devices := db.devices[id := a.value.device]);
    assert EndpointsOf(r.db, id) == EndpointsOf(db, id);
  }

  /** A bare digital command toggles; sending it twice restores the
      original state and changes no other device. */
  lemma ToggleTwiceRestores(db: Db, user: UserId, id: DeviceId, payload: seq<(string, Json.Value)>,
                            rt: Json.Runtime, t1: Timestamp, t2: Timestamp)
    requires DeviceVisible(db, user, id) && db.devices[id].signalType == Digital
    requires CommandEndpoint(db, id).Some?
    requires Json.GetPresent(payload, "state").None? && Json.GetPresent(payload, "is_on").None?
    ensures var r1 := Command(db, user, id, Json.Object(payload), rt, t1);
            var r2 := Command(r1.db, user, id, Json.Object(payload), rt, t2);
            && r1.result.Ok? && r2.result.Ok?
            && r1.db.devices[id].isOn == !db.devices[id].isOn
            && r2.db.devices[id].isOn == db.devices[id].isOn
  {
    var r1 := Command(db, user, id, Json.Object(payload), rt, t1);
    DigitalCommandSucceeds(db, user, id, payload, rt, t1);
    DigitalCommandSucceeds(r1.db, user, id, payload, rt, t2);
  }

  /** An explicit `state` is idempotent: repeating the command leaves the
      device in the state the first one put it in. */
  lemma ExplicitStateIsIdempotent(db: Db, user: UserId, id: DeviceId, payload: seq<(string, Json.Value)>,
                                  rt: Json.Runtime, t1: Timestamp, t2: Timestamp)
    requires DeviceVisible(db, user, id) && db.devices[id].signalType == Digital
    requires CommandEndpoint(db, id).Some?
    requires Json.GetPresent(payload, "state").Some?
    ensures var r1 := Command(db, user, id, Json.Object(payload), rt, t1);
            var r2 := Command(r1.db, user, id, Json.Object(payload), rt, t2);
            && r1.result.Ok? && r2.result.Ok?
            && r2.db.devices[id].isOn == r1.db.devices[id].isOn
            && r2.db.devices[id].lastValueRaw == r1.db.devices[id].lastValueRaw
  {
    var r1 := Command(db, user, id, Json.Object(payload), rt, t1);
    DigitalCommandSucceeds(db, user, id, payload, rt, t1);
    DigitalCommandSucceeds(r1.db, user, id, payload, rt, t2);
  }

  /** `state is not None` comes first: a JSON null `state` counts as not
      sent, so `is_on` or the toggle decides. */
  lemma NullStateCountsAsAbsent(d: Device, payload: seq<(string, Json.Value)>, rt: Json.Runtime)
    requires Json.Get(payload, "state") == Some(Json.Null)
    ensures DesiredOn(d, payload, rt) == if Json.GetPresent(payload, "is_on").Some?
                                         then Json.Truthy(Json.GetPresent(payload, "is_on").value)
                                         else !d.isOn
  {
  }

  /** An explicit `state` wins over `is_on`, whatever `is_on` says. */
  lemma StateOverridesIsOn(d: Device, payload: seq<(string, Json.Value)>, isOn: Json.Value, rt: Json.Runtime)
    requires Json.GetPresent(payload, "state").Some?
    ensures DesiredOn(d, payload + [("is_on", isOn)], rt) == DesiredOn(d, payload, rt)
  {
    var p := payload + [("is_on", isOn)];
    assert p[..|p| - 1] == payload;
    assert Json.Get(p, "state") == Json.Get(payload, "state");
  }
}

=== FILE: json.dfy ===
/** JSON values as Python sees them after `json.loads` (or DRF's JSON
    parser), with the three Python built-ins the backend applies to them:
    truthiness (`bool(v)`), `str(v)` and `float(v)`. */
module Json {
  import opened Wrappers
  import Text

  /** A decoded JSON value. Integers and floats stay apart, as Python keeps
      them apart; an object keeps its members in document order. */
  datatype Value =
    | Null
    | Bool(b: bool)
    | Int(i: int)
    | Float(x: real)
    | Str(s: string)
    | Array(items: seq<Value>)
    | Object(members: seq<(string, Value)>)

  /** The parts of the Python runtime the model does not define: parsing a
      float out of text (`float("4.2")`, `None` when it raises ValueError)
      and the text of a float (`str(4.2)`). */
  datatype Runtime = Runtime(parseFloat: string -> Option<real>, formatFloat: real -> string)

  /** What Python's `str(x)` of a finite float always looks like: it has
      a decimal point ("4.0", "0.25"), an exponent sign ("1e+16",
      "1e-05"), or a minus sign. */
  ghost predicate FormatsFloatsLikePython(rt: Runtime) {
    forall x :: '.' in rt.formatFloat(x) || '+' in rt.formatFloat(x) || '-' in rt.formatFloat(x)
  }

  /** `d.get(key)` on the dict decoded from `members`: a later duplicate
      key overrides an earlier one, as in `json.loads`. */
  function Get(members: seq<(string, Value)>, key: string): (r: Option<Value>)
    ensures r.None? <==> forall i :: 0 <= i < |members| ==> members[i].0 != key
    ensures r.Some? ==> exists i :: 0 <= i < |members| && members[i] == (key, r.value)
                                  && forall j :: i < j < |members| ==> members[j].0 != key
  {
    if |members| == 0 then None
    else if members[|members| - 1].0 == key then Some(members[|members| - 1].1)
    else Get(members[..|members| - 1], key)
  }

  /** `d.get(key, None)` followed by `is not None`: a JSON null counts as absent. */
  function GetPresent(members: seq<(string, Value)>, key: string): (r: Option<Value>)
    ensures r.Some? ==> r.value != Null && Get(members, key) == r
    ensures r.None? <==> Get(members, key) in {None, Some(Null)}
  {
    match Get(members, key)
    case Some(Null) => None
    case other => other
  }

  /** Python truthiness, `bool(v)`. */
  predicate Truthy(v: Value) {
    match v
    case Null => false
    case Bool(b) => b
    case Int(i) => i != 0
    case Float(x) => x != 0.0
    case Str(s) => |s| > 0
    case Array(items) => |items| > 0
    case Object(members) => |members| > 0
  }

  /** `isinstance(v, (int, float))`: a bool is an int in Python. */
  predicate IsNumber(v: Value) {
    v.Bool? || v.Int? || v.Float?
  }

  /** `float(v)`; `None` where Python raises TypeError or ValueError. A
      number keeps its value (a bool is 0 or 1); text goes through the
      runtime's parser. */
  function FloatOf(v: Value, rt: Runtime): (r: Option<real>)
    ensures IsNumber(v) ==> r.Some?
    ensures v.Bool? ==> r == Some(if v.b then 1.0 else 0.0)
    ensures v.Int? ==> r == Some(v.i as real)
    ensures v.Float? ==> r == Some(v.x)
    ensures v.Str? ==> r == rt.parseFloat(v.s)
    ensures v.Null? || v.Array? || v.Object? ==> r.None?
  {
    match v
    case Bool(b) => Some(if b then 1.0 else 0.0)
    case Int(i) => Some(i as real)
    case Float(x) => Some(x)
    case Str(s) => rt.parseFloat(s)
    case _ => None
  }

  /** `str(v)`. Inside containers strings are quoted with `'`; escaping of
      quote characters inside them is not modelled. */
  function PyStr(v: Value, rt: Runtime): (r: string)
    decreases v, 2, 0
  {
    match v
    case Null => "None"
    case Bool(b) => if b then "True" else "False"
    case Int(i) => Text.IntText(i)
    case Float(x) => rt.formatFloat(x)
    case Str(s) => s
    case Array(items) => "[" + ReprItems(v, 0, rt) + "]"
    case Object(members) => "{" + ReprMembers(v, 0, rt) + "}"
  }

  /** `repr(v)` as used inside `str` of a list or dict. */
  function Repr(v: Value, rt: Runtime): string
    decreases v, 3, 0
  {
    if v.Str? then "'" + v.s + "'" else PyStr(v, rt)
  }

  function ReprItems(v: Value, i: nat, rt: Runtime): string
    requires v.Array? && i <= |v.items|
    decreases v, 1, |v.items| - i
  {
    if i == |v.items| then ""
    else (if i == 0 then "" else ", ") + Repr(v.items[i], rt) + ReprItems(v, i + 1, rt)
  }

  function ReprMembers(v: Value, i: nat, rt: Runtime): string
    requires v.Object? && i <= |v.members|
    decreases v, 1, |v.members| - i
  {
    if i == |v.members| then ""
    else
      (if i == 0 then "" else ", ") + "'" + v.members[i].0 + "': "
      + Repr(v.members[i].1, rt) + ReprMembers(v, i + 1, rt)
  }
}

=== FILE: models.dfy ===
/** The records of the automation app (`models.py`): users, rooms,
    integrations, connectors, devices and device endpoints, with their
    closed choice sets and field defaults. Timestamps are opaque numbers
    supplied by the caller. */
module Models {
  import opened Wrappers
  import Json

  type UserId = nat
  type RoomId = nat
  type IntegrationId = nat
  type ConnectorId = nat
  type DeviceId = nat
  type EndpointId = nat
  type Timestamp = int

  // ---------------------------------------------------------------------
  // Choice sets. `Key` is the stored string; `FromKey` is the check a
  // choice field applies to incoming text, accepting exactly the keys.
  // ---------------------------------------------------------------------

  datatype DeviceType = Light | Switch | Camera | Thermostat | Sensor {
    function Key(): string {
      match this
      case Light => "light"
      case Switch => "switch"
      case Camera => "camera"
      case Thermostat => "thermostat"
      case Sensor => "sensor"
    }

    static function FromKey(s: string): (r: Option<DeviceType>)
      ensures r.Some? ==> r.value.Key() == s
      ensures r.None? ==> forall t: DeviceType :: t.Key() != s
    {
      if s == "light" then Some(DeviceType.Light)
      else if s == "switch" then Some(DeviceType.Switch)
      else if s == "camera" then Some(DeviceType.Camera)
      else if s == "thermostat" then Some(DeviceType.Thermostat)
      else if s == "sensor" then Some(DeviceType.Sensor)
      else None
    }
  }

  datatype DeviceKind = Sensor | Actuator | Hybrid {
    function Key(): string {
      match this
      case Sensor => "sensor"
      case Actuator => "actuator"
      case Hybrid => "hybrid"
    }

    static function FromKey(s: string): (r: Option<DeviceKind>)
      ensures r.Some? ==> r.value.Key() == s
      ensures r.None? ==> forall t: DeviceKind :: t.Key() != s
    {
      if s == "sensor" then Some(DeviceKind.Sensor)
      else if s == "actuator" then Some(DeviceKind.Actuator)
      else if s == "hybrid" then Some(DeviceKind.Hybrid)
      else None
    }
  }

  datatype SignalType = Analog | Digital | Text {
    function Key(): string {
      match this
      case Analog => "analog"
      case Digital => "digital"
      case Text => "string"
    }

    static function FromKey(s: string): (r: Option<SignalType>)
      ensures r.Some? ==> r.value.Key() == s
      ensures r.None? ==> forall t: SignalType :: t.Key() != s
    {
      if s == "analog" then Some(SignalType.Analog)
      else if s == "digital" then Some(SignalType.Digital)
      else if s == "string" then Some(SignalType.Text)
      else None
    }
  }

  /** The integration hint stored on a device (`Device.INTEGRATION_CHOICES`). */
  datatype DeviceIntegration = Local | GoogleHome | Nest | Ring | Other {
    function Key(): string {
      match this
      case Local => "local"
      case GoogleHome => "google_home"
      case Nest => "nest"
      case Ring => "ring"
      case Other => "other"
    }

    static function FromKey(s: string): (r: Option<DeviceIntegration>)
      ensures r.Some? ==> r.value.Key() == s
      ensures r.None? ==> forall t: DeviceIntegration :: t.Key() != s
    {
      if s == "local" then Some(DeviceIntegration.Local)
      else if s == "google_home" then Some(DeviceIntegration.GoogleHome)
      else if s == "nest" then Some(DeviceIntegration.Nest)
      else if s == "ring" then Some(DeviceIntegration.Ring)
      else if s == "other" then Some(DeviceIntegration.Other)
      else None
    }
  }

  /** The provider of an `Integration` record. */
  datatype Provider = GoogleHome | Nest | Ring | Other {
    function Key(): string {
      match this
      case GoogleHome => "google_home"
      case Nest => "nest"
      case Ring => "ring"
      case Other => "other"
    }

    static function FromKey(s: string): (r: Option<Provider>)
      ensures r.Some? ==> r.value.Key() == s
      ensures r.None? ==> forall t: Provider :: t.Key() != s
    {
      if s == "google_home" then Some(Provider.GoogleHome)
      else if s == "nest" then Some(Provider.Nest)
      else if s == "ring" then Some(Provider.Ring)
      else if s == "other" then Some(Provider.Other)
      else None
    }
  }

  datatype ConnectorType = Mqtt | PlcModbus | PlcOpcua | NestApi | HttpApi | Other {
    function Key(): string {
      match this
      case Mqtt => "mqtt"
      case PlcModbus => "plc_modbus"
      case PlcOpcua => "plc_opcua"
      case NestApi => "nest_api"
      case HttpApi => "http_api"
      case Other => "other"
    }

    static function FromKey(s: string): (r: Option<ConnectorType>)
      ensures r.Some? ==> r.value.Key() == s
      ensures r.None? ==> forall t: ConnectorType :: t.Key() != s
    {
      if s == "mqtt" then Some(ConnectorType.Mqtt)
      else if s == "plc_modbus" then Some(ConnectorType.PlcModbus)
      else if s == "plc_opcua" then Some(ConnectorType.PlcOpcua)
      else if s == "nest_api" then Some(ConnectorType.NestApi)
      else if s == "http_api" then Some(ConnectorType.HttpApi)
      else if s == "other" then Some(ConnectorType.Other)
      else None
    }
  }

  datatype Direction = Input | Output {
    function Key(): string {
      match this
      case Input => "input"
      case Output => "output"
    }

    static function FromKey(s: string): (r: Option<Direction>)
      ensures r.Some? ==> r.value.Key() == s
      ensures r.None? ==> forall t: Direction :: t.Key() != s
    {
      if s == "input" then Some(Direction.Input)
      else if s == "output" then Some(Direction.Output)
      else None
    }
  }

  // ---------------------------------------------------------------------
  // Records
  // ---------------------------------------------------------------------

  /** A user account. `credential` is whatever account creation stores for
      the password; hashing is outside the model. */
  datatype Account = Account(
    id: UserId, username: string, credential: string,
    firstName: string, lastName: string, email: string)

  /** An uploaded file as Django's file field presents it: it is truthy when
      its name is non-empty, and `url` is `None` when the attribute is
      missing. */
  datatype StoredFile = StoredFile(name: string, url: Option<string>)

  datatype Room = Room(
    id: RoomId, owner: UserId, name: string, slug: string,
    backgroundImage: Option<StoredFile>, backgroundImageUrl: string,
    description: string, isActive: bool,
    createdAt: Timestamp, updatedAt: Timestamp)
  {
    /** An uploaded image that is present and has a URL. */
    predicate HasUploadedUrl() {
      backgroundImage.Some? && backgroundImage.value.name != "" && backgroundImage.value.url.Some?
    }

    /** The uploaded image's URL if there is one, otherwise the external
        URL, otherwise nothing. */
    function EffectiveBackgroundUrl(): (r: Option<string>)
      ensures HasUploadedUrl() ==> r == backgroundImage.value.url
      ensures !HasUploadedUrl() ==> (r.None? <==> backgroundImageUrl == "")
      ensures !HasUploadedUrl() && r.Some? ==> r.value == backgroundImageUrl
    {
      if HasUploadedUrl() then backgroundImage.value.url
      else if backgroundImageUrl == "" then None
      else Some(backgroundImageUrl)
    }
  }

  datatype Integration = Integration(
    id: IntegrationId, owner: UserId, provider: Provider, displayName: string,
    accessToken: string, refreshToken: string, metadata: Json.Value,
    isActive: bool, lastSyncedAt: Option<Timestamp>,
    createdAt: Timestamp, updatedAt: Timestamp)

  datatype Connector = Connector(
    id: ConnectorId, owner: UserId, name: string, connectorType: ConnectorType,
    integration: Option<IntegrationId>,
    host: string, port: Option<nat>, username: string, password: string,
    baseTopic: string, basePath: string, config: Json.Value, isActive: bool,
    createdAt: Timestamp, updatedAt: Timestamp)

  datatype Device = Device(
    id: DeviceId, roomId: RoomId, name: string,
    deviceType: DeviceType, deviceKind: DeviceKind, signalType: SignalType,
    unit: string, minValue: Option<real>, maxValue: Option<real>,
    decimalPlaces: nat, isPercentage: bool,
    lastValue: Option<real>, lastValueRaw: string, lastUpdatedAt: Option<Timestamp>,
    integration: DeviceIntegration, externalId: string, location: string,
    isOn: bool, positionX: real, positionY: real, config: Json.Value,
    isActive: bool, createdAt: Timestamp, updatedAt: Timestamp)

  datatype DeviceEndpoint = DeviceEndpoint(
    id: EndpointId, device: DeviceId, connector: ConnectorId,
    integration: Option<IntegrationId>, direction: Direction, address: string,
    scale: real, offset: real, trueValue: string, falseValue: string,
    isPrimary: bool, metadata: Json.Value,
    createdAt: Timestamp, updatedAt: Timestamp)

  // ---------------------------------------------------------------------
  // Defaults: what a new record holds for every field nobody supplied.
  // ---------------------------------------------------------------------

  const EmptyObject: Json.Value := Json.Object([])

  /** A room as created with only its required fields. */
  function NewRoom(id: RoomId, owner: UserId, name: string, slug: string, now: Timestamp): (r: Room)
    ensures r.id == id && r.owner == owner && r.name == name && r.slug == slug
    ensures r.backgroundImage.None? && r.backgroundImageUrl == "" && r.description == ""
    ensures r.isActive
    ensures r.createdAt == now && r.updatedAt == now
    ensures r.EffectiveBackgroundUrl().None?
  {
    Room(id, owner, name, slug, None, "", "", true, now, now)
  }

  /** A device as created with only its required fields. */
  function NewDevice(id: DeviceId, roomId: RoomId, name: string, deviceType: DeviceType, now: Timestamp): (d: Device)
    ensures d.id == id && d.roomId == roomId && d.name == name && d.deviceType == deviceType
    ensures d.deviceKind == DeviceKind.Sensor && d.signalType == Analog
    ensures d.integration == DeviceIntegration.Local
    ensures !d.isOn && d.positionX == 10.0 && d.positionY == 10.0
    ensures d.decimalPlaces == 1 && !d.isPercentage && d.isActive
    ensures d.unit == "" && d.minValue.None? && d.maxValue.None?
    ensures d.lastValue.None? && d.lastValueRaw == "" && d.lastUpdatedAt.None?
    ensures d.externalId == "" && d.location == "" && d.config == EmptyObject
    ensures d.createdAt == now && d.updatedAt == now
  {
    Device(id, roomId, name, deviceType, DeviceKind.Sensor, Analog,
           "", None, None, 1, false,
           None, "", None,
           DeviceIntegration.Local, "", "",
           false, 10.0, 10.0, EmptyObject,
           true, now, now)
  }

  /** An endpoint as created with only its required fields. */
  function NewEndpoint(id: EndpointId, device: DeviceId, connector: ConnectorId,
                       direction: Direction, address: string, now: Timestamp): (e: DeviceEndpoint)
    ensures e.id == id && e.device == device && e.connector == connector
    ensures e.direction == direction && e.address == address
    ensures e.integration.None?
    ensures e.scale == 1.0 && e.offset == 0.0
    ensures e.isPrimary && e.trueValue == "" && e.falseValue == ""
    ensures e.metadata == EmptyObject
    ensures e.createdAt == now && e.updatedAt == now
  {
    DeviceEndpoint(id, device, connector, None, direction, address,
                   1.0, 0.0, "", "", true, EmptyObject, now, now)
  }
}

=== FILE: mqtt_worker.dfy ===
/** The MQTT worker (`run_mqtt_worker.py`): which topics it subscribes to,
    how a message on a topic updates the devices bound to it, and the
    WebSocket group message it sends for each updated device, together with
    the group `RoomConsumer` joins on the other side. */
module MqttWorker {
  import opened Wrappers
  import Text
  import Json
  import opened Models
  import opened Store
  import Serializers
  import DeviceCommand

  // ---------------------------------------------------------------------
  // Subscriptions (`on_connect`)
  // ---------------------------------------------------------------------

  /** An input endpoint on an MQTT connector. */
  predicate Subscribable(db: Db, e: DeviceEndpoint) {
    && e.direction == Input
    && e.connector in db.connectors
    && db.connectors[e.connector].connectorType == Mqtt
  }

  function SubscribableEndpoints(db: Db): (r: seq<DeviceEndpoint>)
    ensures forall e :: e in r <==> e in db.endpoints && Subscribable(db, e)
  {
    Filter(db.endpoints, (e: DeviceEndpoint) => Subscribable(db, e))
  }

  /** `values_list("address", flat=True)` over rows in table order. */
  function Addresses(eps: seq<DeviceEndpoint>): (r: seq<string>)
    ensures |r| == |eps|
    ensures forall k :: 0 <= k < |eps| ==> r[k] == eps[k].address
  {
    if |eps| == 0 then [] else Addresses(eps[..|eps| - 1]) + [eps[|eps| - 1].address]
  }

  predicate NoDuplicates(s: seq<string>) {
    forall i, j :: 0 <= i < j < |s| ==> s[i] != s[j]
  }

  /** `s` with every element after its first occurrence removed. */
  function Dedup(s: seq<string>): (r: seq<string>)
    ensures NoDuplicates(r)
    ensures forall x :: x in r <==> x in s
    ensures |r| <= |s|
  {
    if |s| == 0 then []
    else
      var init := Dedup(s[..|s| - 1]);
      var last := s[|s| - 1];
      assert s == s[..|s| - 1] + [last];
      if last in init then init else init + [last]
  }

  /** The topics `on_connect` subscribes to, as written. The query asks for
      DISTINCT addresses, but the endpoint model's default ordering
      (device, direction, id) stays in force, and Django adds the ordering
      columns to the SELECT DISTINCT; since every row has its own id, no
      row is removed and the worker gets one topic per endpoint. */
  function SubscriptionTopicsAsWritten(db: Db): (topics: seq<string>)
    ensures |topics| == |SubscribableEndpoints(db)|
    ensures forall k :: 0 <= k < |topics| ==> topics[k] == SubscribableEndpoints(db)[k].address
  {
    Addresses(SubscribableEndpoints(db))
  }

  /** Any two MQTT input endpoints on one topic make the worker subscribe
      to that topic twice. */
  lemma DuplicateSubscriptions(db: Db, e1: DeviceEndpoint, e2: DeviceEndpoint)
    requires e1 in db.endpoints && e2 in db.endpoints && e1 != e2
    requires Subscribable(db, e1) && Subscribable(db, e2) && e1.address == e2.address
    ensures !NoDuplicates(SubscriptionTopicsAsWritten(db))
  {
    var eps := SubscribableEndpoints(db);
    var topics := SubscriptionTopicsAsWritten(db);
    var i :| 0 <= i < |eps| && eps[i] == e1;
    var j :| 0 <= j < |eps| && eps[j] == e2;
    assert topics[i] == topics[j] && i != j;
  }

  /** The topics `on_connect` evidently means to subscribe to: each address
      of an MQTT input endpoint once, in table order of first appearance. */
  function SubscriptionTopics(db: Db): (topics: seq<string>)
    ensures NoDuplicates(topics)
    ensures forall t :: t in topics <==> exists e :: e in db.endpoints && Subscribable(db, e) && e.address == t
    ensures |topics| == 0 <==> forall e :: e in db.endpoints ==> !Subscribable(db, e)
  {
    var eps := SubscribableEndpoints(db);
    var all := Addresses(eps);
    assert forall t :: t in all <==> exists e :: e in eps && e.address == t by {
      forall t ensures t in all <==> exists e :: e in eps && e.address == t {
        if t in all {
          var k :| 0 <= k < |all| && all[k] == t;
          assert eps[k] in eps;
        }
        if exists e :: e in eps && e.address == t {
          var e :| e in eps && e.address == t;
          var k :| 0 <= k < |eps| && eps[k] == e;
          assert all[k] == t;
        }
      }
    }
    var r := Dedup(all);
    assert (forall e :: e in db.endpoints ==> !Subscribable(db, e)) ==> |r| == 0 by {
      if |r| > 0 {
        assert r[0] in all;
      }
    }
    r
  }

  // ---------------------------------------------------------------------
  // Broadcast (`broadcast_device_update`) and the consumer side
  // ---------------------------------------------------------------------

  /** The group a room's consumers listen on, as the worker names it. */
  function GroupName(room: RoomId): string {
    "room_" + Text.NatText(room)
  }

  /** Distinct rooms have distinct groups. */
  lemma GroupNameInjective(a: RoomId, b: RoomId)
    ensures GroupName(a) == GroupName(b) <==> a == b
  {
    if GroupName(a) == GroupName(b) {
      assert Text.NatText(a) == GroupName(a)[5..];
      assert Text.NatText(b) == GroupName(b)[5..];
      Text.NatTextInjective(a, b);
    }
  }

  /** `RoomConsumer.connect`: the group for the URL `ws/rooms/<digits>/`,
      built from the digits exactly as they appear in the path. The route's
      `\d+` also admits non-ASCII decimal digits, so nothing more than a
      non-empty text is assumed of them. */
  function ConsumerGroup(digits: string): (g: string)
    requires |digits| > 0
    ensures |g| == 5 + |digits| && g[5..] == digits
  {
    "room_" + digits
  }

  /** A consumer receives a room's updates exactly when its URL spells the
      room id in canonical decimal: `ws/rooms/007/` hears nothing from room 7. */
  lemma ConsumerHearsRoom(digits: string, room: RoomId)
    requires |digits| > 0
    ensures ConsumerGroup(digits) == GroupName(room) <==> digits == Text.NatText(room)
  {
    if ConsumerGroup(digits) == GroupName(room) {
      assert ConsumerGroup(digits)[5..] == GroupName(room)[5..];
    }
  }

  /** A consumer whose URL has a leading zero hears no room at all. */
  lemma LeadingZeroHearsNothing(digits: string, room: RoomId)
    requires |digits| > 1 && digits[0] == '0'
    ensures ConsumerGroup(digits) != GroupName(room)
  {
    ConsumerHearsRoom(digits, room);
  }

  /** One `group_send` of a `device_update` event. */
  datatype GroupMessage = GroupMessage(group: string, eventType: string, device: Serializers.DeviceOut)

  /** `broadcast_device_update`: nothing without a channel layer, for a
      device without a room, or when serialization fails; otherwise one
      `device_update` to the device's room group. */
  function Broadcast(db: Db, d: Device, hasLayer: bool): (m: Option<GroupMessage>)
    ensures m.Some? <==> hasLayer && d.roomId != 0 && Serializers.SerializeDevice(db, d, None).Some?
    ensures m.Some? ==> && m.value.group == GroupName(d.roomId)
                        && m.value.eventType == "device_update"
                        && m.value.device.id == d.id
                        && m.value.device.lastValue == d.lastValue
                        && m.value.device.unit == d.unit
  {
    if !hasLayer || d.roomId == 0 then None
    else
      match Serializers.SerializeDevice(db, d, None)
      case None => None
      case Some(out) => Some(GroupMessage(GroupName(d.roomId), "device_update", out))
  }

  // ---------------------------------------------------------------------
  // Ingest (`on_message`)
  // ---------------------------------------------------------------------

  /** An endpoint `on_message` updates for `topic`: an MQTT input endpoint
      with that address whose device row exists. */
  predicate Bound(db: Db, topic: string, e: DeviceEndpoint) {
    Subscribable(db, e) && e.address == topic && e.device in db.devices
  }

  function BoundEndpoints(db: Db, topic: string): (r: seq<DeviceEndpoint>)
    ensures forall e :: e in r <==> e in db.endpoints && Bound(db, topic, e)
    ensures Sorted(db.endpoints) ==> Sorted(r)
  {
    Filter(db.endpoints, (e: DeviceEndpoint) => Bound(db, topic, e))
  }

  /** The engineering value of a raw reading: `scale * value + offset`. */
  function Scaled(e: DeviceEndpoint, x: real): real {
    e.scale * x + e.offset
  }

  /** A setpoint written by a command and read back through the same
      endpoint returns the setpoint, except on a zero-scale endpoint, which
      the command treats as scale 1 but a reading maps to the offset. */
  lemma ReadBackRoundTrip(e: DeviceEndpoint, target: real)
    ensures Scaled(e, DeviceCommand.InverseScaled(e, target)) == target <==> e.scale != 0.0 || target == e.offset
  {
  }

  /** `if unit and not device.unit: device.unit = unit`. */
  function FilledUnit(current: string, unit: Option<Json.Value>, rt: Json.Runtime): (u: string)
    ensures current != "" ==> u == current
    ensures current == "" && unit.Some? && Json.Truthy(unit.value) ==> u == Json.PyStr(unit.value, rt)
    ensures unit.None? || !Json.Truthy(unit.value) ==> u == current
  {
    if unit.Some? && Json.Truthy(unit.value) && current == "" then Json.PyStr(unit.value, rt) else current
  }

  /** Filling the unit a second time from the same message changes nothing. */
  lemma FilledUnitIdempotent(current: string, unit: Option<Json.Value>, rt: Json.Runtime)
    ensures FilledUnit(FilledUnit(current, unit, rt), unit, rt) == FilledUnit(current, unit, rt)
  {
  }

  /** A device after one endpoint's reading has been applied to it. */
  function Reading(d: Device, e: DeviceEndpoint, x: real, unit: Option<Json.Value>, payload: string,
                   rt: Json.Runtime, now: Timestamp): (r: Device)
    ensures r.id == d.id && r.roomId == d.roomId
  {
    d.(lastValue := Some(Scaled(e, x)), lastValueRaw := payload, lastUpdatedAt := Some(now),
       unit := FilledUnit(d.unit, unit, rt))
  }

  /** A later reading from the same message overrides an earlier one. */
  lemma ReadingOverrides(d: Device, e1: DeviceEndpoint, e2: DeviceEndpoint, x: real, unit: Option<Json.Value>,
                         payload: string, rt: Json.Runtime, now: Timestamp)
    ensures Reading(Reading(d, e1, x, unit, payload, rt, now), e2, x, unit, payload, rt, now)
            == Reading(d, e2, x, unit, payload, rt, now)
  {
    FilledUnitIdempotent(d.unit, unit, rt);
  }

  /** The last of `eps` that belongs to `device`. */
  function LastFor(eps: seq<DeviceEndpoint>, device: DeviceId): (r: Option<DeviceEndpoint>)
    ensures r.None? <==> forall k :: 0 <= k < |eps| ==> eps[k].device != device
    ensures r.Some? ==> exists i :: (0 <= i < |eps| && eps[i] == r.value && r.value.device == device &&
                           forall j :: i < j < |eps| ==> eps[j].device != device)
  {
    if |eps| == 0 then None
    else if eps[|eps| - 1].device == device then Some(eps[|eps| - 1])
    else
      var init := eps[..|eps| - 1];
      var r := LastFor(init, device);
      assert r.Some? ==> exists i :: (0 <= i < |eps| && eps[i] == r.value && r.value.device == device &&
                           forall j :: i < j < |eps| ==> eps[j].device != device) by {
        if r.Some? {
          var i :| 0 <= i < |init| && init[i] == r.value && r.value.device == device
                   && forall j :: i < j < |init| ==> init[j].device != device;
          assert eps[i] == r.value;
          assert forall j :: i < j < |eps| ==> eps[j].device != device by {
            forall j | i < j < |eps| ensures eps[j].device != device {
              if j < |init| { assert eps[j] == init[j]; }
            }
          }
        }
      }
      r
  }

  /** The loop of `on_message` over the bound endpoints, as it changes the
      device table: each endpoint's reading is saved on its device. Every
      row carries its own snapshot of the device; since a step only rewrites
      the four saved fields and the unit it would fill the same way again,
      reading the device back from the table after each step is the same
      thing. */
  function ApplyReadings(devices: map<DeviceId, Device>, eps: seq<DeviceEndpoint>, x: real, unit: Option<Json.Value>,
                         payload: string, rt: Json.Runtime, now: Timestamp): (r: map<DeviceId, Device>)
    requires forall k :: 0 <= k < |eps| ==> eps[k].device in devices
    ensures r.Keys == devices.Keys
    ensures forall id :: id in devices && (forall k :: 0 <= k < |eps| ==> eps[k].device != id) ==> r[id] == devices[id]
  {
    if |eps| == 0 then devices
    else
      var e := eps[|eps| - 1];
      var init := eps[..|eps| - 1];
      assert forall k :: 0 <= k < |init| ==> init[k] == eps[k];
      var prior := ApplyReadings(devices, init, x, unit, payload, rt, now);
      prior[e.device := Reading(prior[e.device], e, x, unit, payload, rt, now)]
  }

  /** What a device holds after the readings of `eps`: its last endpoint's
      reading, or what it held before when it has none among them. */
  function AfterReadings(d: Device, last: Option<DeviceEndpoint>, x: real, unit: Option<Json.Value>,
                         payload: string, rt: Json.Runtime, now: Timestamp): Device
  {
    if last.None? then d else Reading(d, last.value, x, unit, payload, rt, now)
  }

  predicate ReadingsApplied(devices: map<DeviceId, Device>, eps: seq<DeviceEndpoint>, r: map<DeviceId, Device>,
                            x: real, unit: Option<Json.Value>, payload: string, rt: Json.Runtime, now: Timestamp)
  {
    forall id :: id in devices ==> id in r && r[id] == AfterReadings(devices[id], LastFor(eps, id), x, unit, payload, rt, now)
  }

  /** After the loop, each device holds the reading of the last of its
      endpoints and nothing else of the earlier ones; a device with no
      endpoint among them is as it was. */
  lemma {:induction false} LastReadingWins(devices: map<DeviceId, Device>, eps: seq<DeviceEndpoint>, x: real,
                                           unit: Option<Json.Value>, payload: string, rt: Json.Runtime, now: Timestamp)
    requires forall k :: 0 <= k < |eps| ==> eps[k].device in devices
    ensures ReadingsApplied(devices, eps, ApplyReadings(devices, eps, x, unit, payload, rt, now), x, unit, payload, rt, now)
  {
    if |eps| > 0 {
      var init := eps[..|eps| - 1];
      var e := eps[|eps| - 1];
      LastReadingWins(devices, init, x, unit, payload, rt, now);
      var prior := ApplyReadings(devices, init, x, unit, payload, rt, now);
      var r := ApplyReadings(devices, eps, x, unit, payload, rt, now);
      assert r == prior[e.device := Reading(prior[e.device], e, x, unit, payload, rt, now)];
      forall id | id in devices
        ensures id in r && r[id] == AfterReadings(devices[id], LastFor(eps, id), x, unit, payload, rt, now)
      {
        if id == e.device {
          assert LastFor(eps, id) == Some(e);
          if LastFor(init, id).Some? {
            ReadingOverrides(devices[id], LastFor(init, id).value, e, x, unit, payload, rt, now);
          }
        } else {
          assert LastFor(eps, id) == LastFor(init, id);
        }
      }
    }
  }

  /** Whether a device serializes depends only on its id and room. */
  lemma SerializesAlike(db: Db, d1: Device, d2: Device)
    requires d1.id == d2.id && d1.roomId == d2.roomId
    ensures Serializers.SerializeDevice(db, d1, None).Some? == Serializers.SerializeDevice(db, d2, None).Some?
  {
  }

  /** The group messages the loop sends, in order: after each endpoint's
      reading is saved, the device as it now stands is broadcast.
      Serialization reads the device passed to it and the room, user,
      endpoint, connector and integration tables, none of which the loop
      writes, so it sees the same thing against the tables before the loop. */
  function Sent(db: Db, eps: seq<DeviceEndpoint>, x: real, unit: Option<Json.Value>, payload: string,
                rt: Json.Runtime, now: Timestamp, hasLayer: bool): (sent: seq<GroupMessage>)
    requires forall k :: 0 <= k < |eps| ==> eps[k].device in db.devices
    ensures |sent| <= |eps|
    ensures !hasLayer ==> sent == []
  {
    if |eps| == 0 then []
    else
      var e := eps[|eps| - 1];
      var m := Broadcast(db, Reading(db.devices[e.device], e, x, unit, payload, rt, now), hasLayer);
      Sent(db, eps[..|eps| - 1], x, unit, payload, rt, now, hasLayer) + (if m.Some? then [m.value] else [])
  }

  /** Every message in `sent` is a `device_update` for the device of one of
      `eps`, addressed to that device's room group. */
  predicate RoomAddressed(db: Db, eps: seq<DeviceEndpoint>, sent: seq<GroupMessage>) {
    forall k :: 0 <= k < |sent| ==>
      && sent[k].eventType == "device_update"
      && sent[k].device.id in db.devices
      && LastFor(eps, sent[k].device.id).Some?
      && sent[k].group == GroupName(db.devices[sent[k].device.id].roomId)
  }

  /** Every message the loop sends is a `device_update` for the device of
      one of the endpoints, addressed to that device's room group. */
  lemma {:induction false} SentToRoomGroups(db: Db, eps: seq<DeviceEndpoint>, x: real, unit: Option<Json.Value>,
                                            payload: string, rt: Json.Runtime, now: Timestamp, hasLayer: bool)
    requires forall id :: id in db.devices ==> db.devices[id].id == id
    requires forall k :: 0 <= k < |eps| ==> eps[k].device in db.devices
    ensures RoomAddressed(db, eps, Sent(db, eps, x, unit, payload, rt, now, hasLayer))
  {
    if |eps| > 0 {
      var init := eps[..|eps| - 1];
      var e := eps[|eps| - 1];
      SentToRoomGroups(db, init, x, unit, payload, rt, now, hasLayer);
      var prior := Sent(db, init, x, unit, payload, rt, now, hasLayer);
      var m := Broadcast(db, Reading(db.devices[e.device], e, x, unit, payload, rt, now), hasLayer);
      var sent := Sent(db, eps, x, unit, payload, rt, now, hasLayer);
      assert sent == prior + (if m.Some? then [m.value] else []);
      forall k | 0 <= k < |sent|
        ensures sent[k].device.id in db.devices
        ensures LastFor(eps, sent[k].device.id).Some?
      {
        if k < |prior| {
          assert sent[k] == prior[k];
          var id := prior[k].device.id;
          assert id in db.devices && LastFor(init, id).Some?;
          assert LastFor(eps, id).Some?;
        } else {
          assert sent[k] == m.value;
          assert m.value.device.id == e.device;
          assert LastFor(eps, e.device).Some?;
        }
      }
    }
  }

  /** With a channel layer, every endpoint whose device sits in a room and
      can be serialized produces one message. */
  lemma {:induction false} SentForEveryEndpoint(db: Db, eps: seq<DeviceEndpoint>, x: real, unit: Option<Json.Value>,
                                                payload: string, rt: Json.Runtime, now: Timestamp)
    requires forall k :: 0 <= k < |eps| ==> eps[k].device in db.devices
    requires forall k :: 0 <= k < |eps| ==>
               db.devices[eps[k].device].roomId != 0
               && Serializers.SerializeDevice(db, db.devices[eps[k].device], None).Some?
    ensures |Sent(db, eps, x, unit, payload, rt, now, true)| == |eps|
  {
    if |eps| > 0 {
      var e := eps[|eps| - 1];
      SentForEveryEndpoint(db, eps[..|eps| - 1], x, unit, payload, rt, now);
      SerializesAlike(db, Reading(db.devices[e.device], e, x, unit, payload, rt, now), db.devices[e.device]);
    }
  }

  /** Why a message changed nothing. */
  datatype Skip = NoBinding | InvalidJson | NotAnObject | NoNumericValue

  /** `data.get("value")` when it is a number (a bool counts, as in Python). */
  function NumericValue(data: Json.Value, rt: Json.Runtime): (r: Option<real>)
    ensures r.Some? <==> data.Object? && Json.Get(data.members, "value").Some?
                         && Json.IsNumber(Json.Get(data.members, "value").value)
    ensures r.Some? ==> var v := Json.Get(data.members, "value").value;
                        && (v.Int? ==> r.value == v.i as real)
                        && (v.Float? ==> r.value == v.x)
                        && (v.Bool? ==> r.value == if v.b then 1.0 else 0.0)
  {
    if !data.Object? then None
    else
      match Json.Get(data.members, "value")
      case Some(v) => if Json.IsNumber(v) then Json.FloatOf(v, rt) else None
      case None => None
  }

  /** The state after a message and the group messages sent for it, in order. */
  datatype Ingested = Ingested(db: Db, sent: seq<GroupMessage>)

  /** `on_message` for `payload` arriving on `topic`; `parseJson` is
      `json.loads` (`None` where it raises). On a skip nothing is saved and
      nothing is sent. */
  function OnMessage(db: Db, topic: string, payload: string, parseJson: string -> Option<Json.Value>,
                     rt: Json.Runtime, now: Timestamp, hasLayer: bool): (r: Result<Ingested, Skip>)
    ensures r == Err(NoBinding) <==> forall e :: e in db.endpoints ==> !Bound(db, topic, e)
    ensures r == Err(InvalidJson) <==> && (exists e :: e in db.endpoints && Bound(db, topic, e))
                                       && parseJson(payload).None?
    ensures r.Ok? <==> && (exists e :: e in db.endpoints && Bound(db, topic, e))
                       && parseJson(payload).Some?
                       && NumericValue(parseJson(payload).value, rt).Some?
  {
    var eps := BoundEndpoints(db, topic);
    assert forall k :: 0 <= k < |eps| ==> eps[k].device in db.devices by {
      forall k | 0 <= k < |eps| ensures eps[k].device in db.devices {
        assert eps[k] in eps;
      }
    }
    if |eps| == 0 then
      Err(NoBinding)
    else
      assert eps[0] in eps;
      match parseJson(payload)
      case None => Err(InvalidJson)
      case Some(data) =>
        if !data.Object? then Err(NotAnObject)
        else
          match NumericValue(data, rt)
          case None => Err(NoNumericValue)
          case Some(x) =>
            var unit := Json.GetPresent(data.members, "unit");
            Ok(Ingested(db.(devices := ApplyReadings(db.devices, eps, x, unit, payload, rt, now)),
                        Sent(db, eps, x, unit, payload, rt, now, hasLayer)))
  }

  // ---------------------------------------------------------------------
  // What a message does
  // ---------------------------------------------------------------------

  /** A message only writes the device table, and there only devices bound
      to its topic. */
  lemma UnboundDevicesUntouched(db: Db, topic: string, payload: string, parseJson: string -> Option<Json.Value>,
                                rt: Json.Runtime, now: Timestamp, hasLayer: bool, id: DeviceId)
    requires id in db.devices
    requires forall e :: e in db.endpoints && Bound(db, topic, e) ==> e.device != id
    ensures var r := OnMessage(db, topic, payload, parseJson, rt, now, hasLayer);
            r.Ok? ==> && r.value.db == db.(devices := r.value.db.devices)
                      && r.value.db.devices.Keys == db.devices.Keys
                      && r.value.db.devices[id] == db.devices[id]
  {
    var eps := BoundEndpoints(db, topic);
    forall k | 0 <= k < |eps| ensures eps[k].device != id {
      assert eps[k] in eps;
    }
    assert LastFor(eps, id).None?;
    var r := OnMessage(db, topic, payload, parseJson, rt, now, hasLayer);
    if r.Ok? {
      var data := parseJson(payload).value;
      var x := NumericValue(data, rt).value;
      var unit := Json.GetPresent(data.members, "unit");
      BoundDevicesExist(db, topic);
      assert r.value.db == db.(devices := ApplyReadings(db.devices, eps, x, unit, payload, rt, now));
      LastReadingWins(db.devices, eps, x, unit, payload, rt, now);
    }
  }

  /** A bound device takes the reading of its last bound endpoint, keeps a
      unit it already has, and changes in no other field. */
  lemma BoundDeviceTakesReading(db: Db, topic: string, payload: string, parseJson: string -> Option<Json.Value>,
                                rt: Json.Runtime, now: Timestamp, hasLayer: bool, id: DeviceId)
    requires id in db.devices
    requires LastFor(BoundEndpoints(db, topic), id).Some?
    ensures var r := OnMessage(db, topic, payload, parseJson, rt, now, hasLayer);
            r.Ok? ==>
              var d := db.devices[id];
              var d' := r.value.db.devices[id];
              var x := NumericValue(parseJson(payload).value, rt).value;
              && d'.lastValue == Some(Scaled(LastFor(BoundEndpoints(db, topic), id).value, x))
              && d'.lastValueRaw == payload && d'.lastUpdatedAt == Some(now)
              && (d.unit != "" ==> d'.unit == d.unit)
              && d' == d.(lastValue := d'.lastValue, lastValueRaw := payload, lastUpdatedAt := Some(now), unit := d'.unit)
  {
    var eps := BoundEndpoints(db, topic);
    var r := OnMessage(db, topic, payload, parseJson, rt, now, hasLayer);
    if r.Ok? {
      var data := parseJson(payload).value;
      var x := NumericValue(data, rt).value;
      BoundDevicesExist(db, topic);
      var unit := Json.GetPresent(data.members, "unit");
      var devices := ApplyReadings(db.devices, eps, x, unit, payload, rt, now);
      assert r.value.db == db.(devices := devices);
      LastReadingWins(db.devices, eps, x, unit, payload, rt, now);
      assert devices[id] == Reading(db.devices[id], LastFor(eps, id).value, x, unit, payload, rt, now);
    }
  }

  /** Every message a topic update sends is a `device_update` for a device
      bound to the topic, addressed to the group of the room that device
      is in. */
  lemma MessagesTargetRoomGroups(db: Db, topic: string, payload: string, parseJson: string -> Option<Json.Value>,
                                 rt: Json.Runtime, now: Timestamp, hasLayer: bool)
    requires forall id :: id in db.devices ==> db.devices[id].id == id
    ensures var r := OnMessage(db, topic, payload, parseJson, rt, now, hasLayer);
            r.Ok? ==> forall k :: 0 <= k < |r.value.sent| ==>
                        && r.value.sent[k].eventType == "device_update"
                        && r.value.sent[k].device.id in db.devices
                        && LastFor(BoundEndpoints(db, topic), r.value.sent[k].device.id).Some?
                        && r.value.sent[k].group == GroupName(db.devices[r.value.sent[k].device.id].roomId)
  {
    var eps := BoundEndpoints(db, topic);
    var r := OnMessage(db, topic, payload, parseJson, rt, now, hasLayer);
    if r.Ok? {
      var data := parseJson(payload).value;
      var x := NumericValue(data, rt).value;
      var unit := Json.GetPresent(data.members, "unit");
      BoundDevicesExist(db, topic);
      assert r.value.sent == Sent(db, eps, x, unit, payload, rt, now, hasLayer);
      SentToRoomGroups(db, eps, x, unit, payload, rt, now, hasLayer);
    }
  }

  lemma BoundDevicesExist(db: Db, topic: string)
    ensures forall k :: 0 <= k < |BoundEndpoints(db, topic)| ==> BoundEndpoints(db, topic)[k].device in db.devices
  {
    var eps := BoundEndpoints(db, topic);
    forall k | 0 <= k < |eps| ensures eps[k].device in db.devices {
      assert eps[k] in eps;
    }
  }

  /** In the endpoint table's order, the endpoint whose reading a device
      keeps is its bound endpoint with the highest id. */
  lemma LastReadingHasHighestId(db: Db, topic: string, id: DeviceId)
    requires Sorted(db.endpoints)
    requires LastFor(BoundEndpoints(db, topic), id).Some?
    ensures forall e :: e in db.endpoints && Bound(db, topic, e) && e.device == id ==>
              e.id <= LastFor(BoundEndpoints(db, topic), id).value.id
  {
    var eps := BoundEndpoints(db, topic);
    assert Sorted(eps);
    var last := LastFor(eps, id).value;
    var i :| 0 <= i < |eps| && eps[i] == last && last.device == id
             && forall j :: i < j < |eps| ==> eps[j].device != id;
    assert eps[i] in eps;
    forall e | e in db.endpoints && Bound(db, topic, e) && e.device == id
      ensures e.id <= last.id
    {
      assert e in eps;
      var k :| 0 <= k < |eps| && eps[k] == e;
      if k < i {
        EarlierOfSameClassHasLowerId(eps, k, i);
      }
    }
  }

  /** Every stored device can be serialized. */
  predicate Serializable(db: Db) {
    forall id :: id in db.devices ==> Serializers.SerializeDevice(db, db.devices[id], None).Some?
  }

  lemma ConsistentIsSerializable(db: Db)
    requires Consistent(db)
    ensures Serializable(db)
  {
    forall id | id in db.devices ensures Serializers.SerializeDevice(db, db.devices[id], None).Some? {
      Serializers.SerializeDeviceSucceeds(db, id, None);
    }
  }

  /** With a channel layer, when every device serializes (as in a
      consistent database) and every bound device is in a room, every
      bound endpoint produces exactly one group message. */
  lemma EveryReadingIsBroadcast(db: Db, topic: string, payload: string, parseJson: string -> Option<Json.Value>,
                                rt: Json.Runtime, now: Timestamp)
    requires Serializable(db)
    requires forall e :: e in db.endpoints && Bound(db, topic, e) ==> db.devices[e.device].roomId != 0
    ensures var r := OnMessage(db, topic, payload, parseJson, rt, now, true);
            r.Ok? ==> |r.value.sent| == |BoundEndpoints(db, topic)|
  {
    var eps := BoundEndpoints(db, topic);
    BoundDevicesExist(db, topic);
    forall k | 0 <= k < |eps| ensures db.devices[eps[k].device].roomId != 0 {
      assert eps[k] in eps;
    }
    var r := OnMessage(db, topic, payload, parseJson, rt, now, true);
    if r.Ok? {
      var data := parseJson(payload).value;
      var x := NumericValue(data, rt).value;
      var unit := Json.GetPresent(data.members, "unit");
      assert r.value.sent == Sent(db, eps, x, unit, payload, rt, now, true);
      SentForEveryEndpoint(db, eps, x, unit, payload, rt, now);
    }
  }
}

=== FILE: permissions.dfy ===
/** The `IsOwner` permission (`views.py`): which user owns an object, found
    by following `owner`, then `room.owner`, then `device.room.owner`. */
module Permissions {
  import opened Wrappers
  import opened Models
  import opened Store

  /** The objects the permission is asked about. */
  datatype Obj =
    | RoomObj(room: Room)
    | IntegrationObj(integration: Integration)
    | ConnectorObj(connector: Connector)
    | DeviceObj(device: Device)
    | EndpointObj(endpoint: DeviceEndpoint)

  /** `getattr(obj, "owner", None)`: rooms, integrations and connectors
      carry an owner field; devices and endpoints do not. */
  function OwnerAttr(o: Obj): Option<UserId> {
    match o
    case RoomObj(r) => Some(r.owner)
    case IntegrationObj(i) => Some(i.owner)
    case ConnectorObj(c) => Some(c.owner)
    case _ => None
  }

  /** `hasattr(obj, "room")`: only a device has a room. */
  predicate HasRoomAttr(o: Obj) {
    o.DeviceObj?
  }

  /** `hasattr(obj, "device")`: only an endpoint has a device. */
  predicate HasDeviceAttr(o: Obj) {
    o.EndpointObj?
  }

  /** The owner chain of `has_object_permission`. A missing row along the
      chain (which a consistent database never has) yields no owner. */
  function ResolveOwner(db: Db, o: Obj): Option<UserId> {
    var owner := OwnerAttr(o);
    var owner :=
      if owner.None? && HasRoomAttr(o) then
        (if o.device.roomId in db.rooms then Some(db.rooms[o.device.roomId].owner) else None)
      else owner;
    var owner :=
      if owner.None? && HasDeviceAttr(o) then DeviceOwner(db, o.endpoint.device)
      else owner;
    owner
  }

  /** `IsOwner.has_object_permission`: access is granted exactly when the
      resolved owner is the requesting user. */
  function HasObjectPermission(db: Db, user: UserId, o: Obj): (granted: bool)
    ensures o.RoomObj? ==> (granted <==> o.room.owner == user)
    ensures o.IntegrationObj? ==> (granted <==> o.integration.owner == user)
    ensures o.ConnectorObj? ==> (granted <==> o.connector.owner == user)
    ensures o.DeviceObj? ==> (granted <==> RoomVisible(db, user, o.device.roomId))
    ensures o.EndpointObj? ==> (granted <==> DeviceVisible(db, user, o.endpoint.device))
  {
    ResolveOwner(db, o) == Some(user)
  }

  /** Every device the per-user device list shows passes the object check,
      so a device view never answers 403 after its lookup succeeded. */
  lemma VisibleDeviceIsPermitted(db: Db, user: UserId, id: DeviceId)
    requires DeviceVisible(db, user, id)
    ensures HasObjectPermission(db, user, DeviceObj(db.devices[id]))
  {
  }

  /** The same for rooms. */
  lemma VisibleRoomIsPermitted(db: Db, user: UserId, id: RoomId)
    requires RoomVisible(db, user, id)
    ensures HasObjectPermission(db, user, RoomObj(db.rooms[id]))
  {
  }
}

=== FILE: serializers.dfy ===
/** The REST representations (`serializers.py`): what each record looks
    like on the way out (read side) and which fields a client may send on
    the way in (write side). A field that is write-only is absent from the
    `...Out` record; a field that is read-only is absent from the `...Write`
    record, so neither direction can carry it. */
module Serializers {
  import opened Wrappers
  import Text
  import Json
  import opened Models
  import opened Store

  // ---------------------------------------------------------------------
  // Read side
  // ---------------------------------------------------------------------

  /** The request a serializer may find in its context; only
      `build_absolute_uri` is used, and it is supplied by the framework. */
  datatype Request = Request(buildAbsoluteUri: string -> string)

  datatype UserOut = UserOut(id: UserId, username: string, firstName: string, lastName: string, email: string)

  /** A room as the API shows it: `background_image` (the upload) is absent. */
  datatype RoomOut = RoomOut(
    id: RoomId, owner: UserOut, name: string, slug: string, description: string,
    backgroundImageUrl: Option<string>, isActive: bool,
    createdAt: Timestamp, updatedAt: Timestamp)

  datatype IntegrationOut = IntegrationOut(
    id: IntegrationId, owner: UserOut, provider: Provider, displayName: string,
    accessToken: string, refreshToken: string, metadata: Json.Value,
    isActive: bool, lastSyncedAt: Option<Timestamp>,
    createdAt: Timestamp, updatedAt: Timestamp)

  /** A connector as the API shows it: no `password`, no `integration_id`. */
  datatype ConnectorOut = ConnectorOut(
    id: ConnectorId, owner: UserOut, name: string, connectorType: ConnectorType,
    integration: Option<IntegrationOut>,
    host: string, port: Option<nat>, username: string,
    baseTopic: string, basePath: string, config: Json.Value, isActive: bool,
    createdAt: Timestamp, updatedAt: Timestamp)

  /** An endpoint as the API shows it: no `connector_id`, no `integration_id`. */
  datatype EndpointOut = EndpointOut(
    id: EndpointId, device: DeviceId, connector: ConnectorOut,
    integration: Option<IntegrationOut>, direction: Direction, address: string,
    scale: real, offset: real, trueValue: string, falseValue: string,
    isPrimary: bool, metadata: Json.Value,
    createdAt: Timestamp, updatedAt: Timestamp)

  /** A device as the API shows it: the room nested, no `room_id`. */
  datatype DeviceOut = DeviceOut(
    id: DeviceId, room: RoomOut, name: string,
    deviceType: DeviceType, deviceKind: DeviceKind, signalType: SignalType,
    unit: string, minValue: Option<real>, maxValue: Option<real>,
    decimalPlaces: nat, isPercentage: bool,
    lastValue: Option<real>, lastValueRaw: string, lastUpdatedAt: Option<Timestamp>,
    integration: DeviceIntegration, externalId: string, location: string,
    isOn: bool, positionX: real, positionY: real, config: Json.Value,
    isActive: bool, createdAt: Timestamp, updatedAt: Timestamp,
    endpoints: seq<EndpointOut>)

  /** `RoomSerializer.get_background_image_url`: nothing for an empty URL;
      a URL not starting with "http" is made absolute when a request is at
      hand; any other URL is returned as it is. */
  function BackgroundImageUrl(room: Room, request: Option<Request>): (r: Option<string>)
    ensures var url := room.EffectiveBackgroundUrl(); r.None? <==> url.None? || url.value == ""
    ensures var url := room.EffectiveBackgroundUrl();
      url.Some? && url.value != "" && request.Some? && !Text.StartsWith(url.value, "http") ==>
        r == Some(request.value.buildAbsoluteUri(url.value))
    ensures var url := room.EffectiveBackgroundUrl();
      url.Some? && url.value != "" && (request.None? || Text.StartsWith(url.value, "http")) ==>
        r == url
  {
    var url := room.EffectiveBackgroundUrl();
    if url.None? || url.value == "" then None
    else if request.Some? && !Text.StartsWith(url.value, "http") then
      Some(request.value.buildAbsoluteUri(url.value))
    else url
  }

  /** An uploaded image with a URL decides the room's image URL; the
      external URL field is then irrelevant. */
  lemma UploadedImageWins(room: Room, external: string, request: Option<Request>)
    requires room.HasUploadedUrl()
    ensures BackgroundImageUrl(room, request) == BackgroundImageUrl(room.(backgroundImageUrl := external), request)
    ensures room.backgroundImage.value.url.value != "" ==> BackgroundImageUrl(room, request).Some?
  {
  }

  function SerializeUser(db: Db, id: UserId): (r: Option<UserOut>)
    ensures r.Some? <==> id in db.users
    ensures r.Some? ==> r.value.id == db.users[id].id && r.value.username == db.users[id].username
  {
    if id !in db.users then None
    else
      var a := db.users[id];
      Some(UserOut(a.id, a.username, a.firstName, a.lastName, a.email))
  }

  function SerializeRoom(db: Db, room: Room, request: Option<Request>): (r: Option<RoomOut>)
    ensures r.Some? <==> room.owner in db.users
    ensures r.Some? ==> r.value.id == room.id && r.value.slug == room.slug
                        && r.value.backgroundImageUrl == BackgroundImageUrl(room, request)
  {
    var owner :- SerializeUser(db, room.owner);
    Some(RoomOut(room.id, owner, room.name, room.slug, room.description,
                 BackgroundImageUrl(room, request), room.isActive,
                 room.createdAt, room.updatedAt))
  }

  /** The uploaded file itself never reaches the output: two rooms that
      differ only in how their image URL is stored, but agree on the
      effective URL, look the same. */
  lemma BackgroundImageIsWriteOnly(db: Db, room: Room, image: Option<StoredFile>, external: string, request: Option<Request>)
    requires room.(backgroundImage := image, backgroundImageUrl := external).EffectiveBackgroundUrl()
             == room.EffectiveBackgroundUrl()
    ensures SerializeRoom(db, room.(backgroundImage := image, backgroundImageUrl := external), request)
            == SerializeRoom(db, room, request)
  {
  }

  function SerializeIntegration(db: Db, i: Integration): (r: Option<IntegrationOut>)
    ensures r.Some? <==> i.owner in db.users
    ensures r.Some? ==> r.value.id == i.id
  {
    var owner :- SerializeUser(db, i.owner);
    Some(IntegrationOut(i.id, owner, i.provider, i.displayName, i.accessToken, i.refreshToken,
                        i.metadata, i.isActive, i.lastSyncedAt, i.createdAt, i.updatedAt))
  }

  /** The nested integration of a connector or endpoint: `None` inside when
      there is no link, outer `None` when the link does not resolve. */
  function SerializeLink(db: Db, link: Option<IntegrationId>): (r: Option<Option<IntegrationOut>>)
    ensures r.Some? <==> (link.Some? ==> link.value in db.integrations && db.integrations[link.value].owner in db.users)
    ensures r.Some? ==> (r.value.Some? <==> link.Some?)
    ensures r.Some? && link.Some? ==> r.value.value.id == db.integrations[link.value].id
  {
    if link.None? then Some(None)
    else if link.value !in db.integrations then None
    else
      var out :- SerializeIntegration(db, db.integrations[link.value]);
      Some(Some(out))
  }

  /** Predicate form of "every link of this connector resolves". */
  predicate ConnectorResolves(db: Db, c: Connector) {
    c.owner in db.users
    && (c.integration.Some? ==> c.integration.value in db.integrations
                                && db.integrations[c.integration.value].owner in db.users)
  }

  function SerializeConnector(db: Db, c: Connector): (r: Option<ConnectorOut>)
    ensures r.Some? <==> ConnectorResolves(db, c)
    ensures r.Some? ==> r.value.id == c.id && (r.value.integration.Some? <==> c.integration.Some?)
  {
    var owner :- SerializeUser(db, c.owner);
    var integration :- SerializeLink(db, c.integration);
    Some(ConnectorOut(c.id, owner, c.name, c.connectorType, integration,
                      c.host, c.port, c.username, c.baseTopic, c.basePath,
                      c.config, c.isActive, c.createdAt, c.updatedAt))
  }

  /** The connector password is write-only: changing it changes nothing
      the API shows. */
  lemma PasswordIsWriteOnly(db: Db, c: Connector, password: string)
    ensures SerializeConnector(db, c.(password := password)) == SerializeConnector(db, c)
  {
  }

  predicate EndpointResolves(db: Db, e: DeviceEndpoint) {
    e.connector in db.connectors && ConnectorResolves(db, db.connectors[e.connector])
    && (e.integration.Some? ==> e.integration.value in db.integrations
                                && db.integrations[e.integration.value].owner in db.users)
  }

  function SerializeEndpoint(db: Db, e: DeviceEndpoint): (r: Option<EndpointOut>)
    ensures r.Some? <==> EndpointResolves(db, e)
    ensures r.Some? ==> r.value.id == e.id && r.value.device == e.device && r.value.connector.id == db.connectors[e.connector].id
  {
    if e.connector !in db.connectors then None
    else
      var connector :- SerializeConnector(db, db.connectors[e.connector]);
      var integration :- SerializeLink(db, e.integration);
      Some(EndpointOut(e.id, e.device, connector, integration, e.direction, e.address,
                       e.scale, e.offset, e.trueValue, e.falseValue, e.isPrimary,
                       e.metadata, e.createdAt, e.updatedAt))
  }

  /** `DeviceEndpointSerializer(many=True)`: every row, in order, or a
      failure if any row does not resolve. */
  function SerializeEndpoints(db: Db, eps: seq<DeviceEndpoint>): (r: Option<seq<EndpointOut>>)
    ensures r.Some? <==> forall k :: 0 <= k < |eps| ==> EndpointResolves(db, eps[k])
    ensures r.Some? ==> |r.value| == |eps|
                        && forall k :: 0 <= k < |eps| ==> r.value[k].id == eps[k].id && r.value[k].device == eps[k].device
  {
    if |eps| == 0 then Some([])
    else
      var init :- SerializeEndpoints(db, eps[..|eps| - 1]);
      var last :- SerializeEndpoint(db, eps[|eps| - 1]);
      Some(init + [last])
  }

  /** `DeviceSerializer(device).data`; `None` where serialization would
      raise because a referenced row is missing. */
  function SerializeDevice(db: Db, d: Device, request: Option<Request>): (r: Option<DeviceOut>)
    ensures r.Some? <==> d.roomId in db.rooms && db.rooms[d.roomId].owner in db.users
                         && forall k :: 0 <= k < |EndpointsOf(db, d.id)| ==> EndpointResolves(db, EndpointsOf(db, d.id)[k])
    ensures r.Some? ==> && r.value.id == d.id
                        && Some(r.value.room) == SerializeRoom(db, db.rooms[d.roomId], request)
                        && r.value.isOn == d.isOn && r.value.lastValue == d.lastValue
                        && r.value.lastValueRaw == d.lastValueRaw && r.value.unit == d.unit
                        && |r.value.endpoints| == |EndpointsOf(db, d.id)|
  {
    if d.roomId !in db.rooms then None
    else
      var room :- SerializeRoom(db, db.rooms[d.roomId], request);
      var endpoints :- SerializeEndpoints(db, EndpointsOf(db, d.id));
      Some(DeviceOut(d.id, room, d.name, d.deviceType, d.deviceKind, d.signalType,
                     d.unit, d.minValue, d.maxValue, d.decimalPlaces, d.isPercentage,
                     d.lastValue, d.lastValueRaw, d.lastUpdatedAt,
                     d.integration, d.externalId, d.location,
                     d.isOn, d.positionX, d.positionY, d.config,
                     d.isActive, d.createdAt, d.updatedAt, endpoints))
  }

  /** In a consistent database every stored device can be serialized. */
  lemma SerializeDeviceSucceeds(db: Db, id: DeviceId, request: Option<Request>)
    requires Consistent(db) && id in db.devices
    ensures SerializeDevice(db, db.devices[id], request).Some?
  {
    var eps := EndpointsOf(db, id);
    forall k | 0 <= k < |eps| ensures EndpointResolves(db, eps[k]) {
      assert eps[k] in db.endpoints;
    }
  }

  // ---------------------------------------------------------------------
  // Login
  // ---------------------------------------------------------------------

  datatype LoginAttrs = LoginAttrs(username: string, password: string)

  /** The validated data of a login: the input plus the `user` entry. */
  datatype LoginData = LoginData(username: string, password: string, user: UserId)

  const InvalidCredentials := "Invalid username or password"

  /** `LoginSerializer.validate`. Its `attrs` are the field values after
      the fields' own checks (trimmed, present, not blank). Authentication
      is supplied by the framework. */
  function ValidateLogin(attrs: LoginAttrs, authenticate: (string, string) -> Option<UserId>): (r: Result<LoginData, string>)
    ensures r.Err? <==> authenticate(attrs.username, attrs.password).None?
    ensures r.Err? ==> r.error == InvalidCredentials
    ensures r.Ok? ==> && r.value.username == attrs.username && r.value.password == attrs.password
                      && Some(r.value.user) == authenticate(attrs.username, attrs.password)
  {
    match authenticate(attrs.username, attrs.password)
    case None => Err(InvalidCredentials)
    case Some(user) => Ok(LoginData(attrs.username, attrs.password, user))
  }

  // ---------------------------------------------------------------------
  // Write side
  // ---------------------------------------------------------------------

  /** One field of an incoming payload: left out (`Keep`) or sent (`Set`). */
  datatype Patch<T> = Keep | Set(value: T) {
    function Apply(current: T): T {
      if Set? then value else current
    }
  }

  /** A field error as the serializer reports it. */
  datatype FieldError = FieldError(field: string, message: string)

  const Required := "This field is required."
  const Blank := "This field may not be blank."

  function NoSuchObject(pk: nat): string {
    "Invalid pk \"" + Text.NatText(pk) + "\" - object does not exist."
  }

  /** The error, if any, for a required field. `partial` is DRF's flag:
      false for create (POST) and full update (PUT), which must carry every
      required field; true for partial update (PATCH), which need not. */
  function RequiredError<T>(field: string, p: Patch<T>, partial: bool): (r: seq<FieldError>)
    ensures r == [] <==> partial || p.Set?
  {
    if !partial && p.Keep? then [FieldError(field, Required)] else []
  }

  /** The error, if any, for a required text field that may not be blank.
      `CharField` trims surrounding whitespace first, so text made only of
      whitespace is blank too. */
  function TextError(field: string, p: Patch<string>, partial: bool): (r: seq<FieldError>)
    ensures r == [] <==> (partial || p.Set?) && (p.Set? ==> !Text.AllSpace(p.value))
  {
    if !partial && p.Keep? then [FieldError(field, Required)]
    else if p.Set? && Text.Strip(p.value) == "" then [FieldError(field, Blank)]
    else []
  }

  /** A text field as the serializer stores it: trimmed when sent, the
      current value otherwise. */
  function StoredText(p: Patch<string>, current: string): string {
    if p.Set? then Text.Strip(p.value) else current
  }

  /** The error, if any, for a required primary-key reference. */
  function PkError<T>(field: string, p: Patch<nat>, table: map<nat, T>, partial: bool): (r: seq<FieldError>)
    ensures r == [] <==> (partial || p.Set?) && (p.Set? ==> p.value in table)
  {
    if !partial && p.Keep? then [FieldError(field, Required)]
    else if p.Set? && p.value !in table then [FieldError(field, NoSuchObject(p.value))]
    else []
  }

  /** Writable room fields. `id`, `owner`, `created_at`, `updated_at` are
      read-only, and `background_image_url` is output-only: the API cannot
      set the stored external URL at all. */
  datatype RoomWrite = RoomWrite(
    name: Patch<string>, slug: Patch<string>, description: Patch<string>,
    backgroundImage: Patch<Option<StoredFile>>, isActive: Patch<bool>)

  function RoomWriteErrors(w: RoomWrite, partial: bool): (errs: seq<FieldError>)
    ensures errs == [] <==> && (!partial ==> w.name.Set? && w.slug.Set?)
                            && (w.name.Set? ==> !Text.AllSpace(w.name.value))
                            && (w.slug.Set? ==> !Text.AllSpace(w.slug.value))
  {
    TextError("name", w.name, partial) + TextError("slug", w.slug, partial)
  }

  /** Saves a room write. `updated_at` is stamped by the server clock. */
  function ApplyRoomWrite(room: Room, w: RoomWrite, now: Timestamp): (r: Room)
    ensures r.id == room.id && r.owner == room.owner && r.createdAt == room.createdAt
    ensures r.updatedAt == now
    ensures r.backgroundImageUrl == room.backgroundImageUrl
    ensures w.name.Keep? ==> r.name == room.name
    ensures w.name.Set? ==> r.name == Text.Strip(w.name.value)
    ensures w.slug.Keep? ==> r.slug == room.slug
    ensures w.slug.Set? ==> r.slug == Text.Strip(w.slug.value)
    ensures w.backgroundImage.Keep? ==> r.backgroundImage == room.backgroundImage
    ensures w.backgroundImage.Set? ==> r.backgroundImage == w.backgroundImage.value
    ensures w.description.Keep? ==> r.description == room.description
    ensures w.description.Set? ==> r.description == Text.Strip(w.description.value)
    ensures w.isActive.Keep? ==> r.isActive == room.isActive
    ensures w.isActive.Set? ==> r.isActive == w.isActive.value
  {
    room.(name := StoredText(w.name, room.name), slug := StoredText(w.slug, room.slug),
          description := StoredText(w.description, room.description),
          backgroundImage := w.backgroundImage.Apply(room.backgroundImage),
          isActive := w.isActive.Apply(room.isActive), updatedAt := now)
  }

  /** Writable device fields. `id`, `last_value`, `last_value_raw`,
      `last_updated_at`, `created_at`, `updated_at` and `endpoints` are
      read-only; the room is written only as `room_id`. */
  datatype DeviceWrite = DeviceWrite(
    roomId: Patch<RoomId>, name: Patch<string>,
    deviceType: Patch<DeviceType>, deviceKind: Patch<DeviceKind>, signalType: Patch<SignalType>,
    unit: Patch<string>, minValue: Patch<Option<real>>, maxValue: Patch<Option<real>>,
    decimalPlaces: Patch<nat>, isPercentage: Patch<bool>,
    integration: Patch<DeviceIntegration>, externalId: Patch<string>, location: Patch<string>,
    isOn: Patch<bool>, positionX: Patch<real>, positionY: Patch<real>,
    config: Patch<Json.Value>, isActive: Patch<bool>)

  const NoDeviceWrite: DeviceWrite :=
    DeviceWrite(Keep, Keep, Keep, Keep, Keep, Keep, Keep, Keep, Keep,
                Keep, Keep, Keep, Keep, Keep, Keep, Keep, Keep, Keep)

  function DeviceWriteErrors(db: Db, w: DeviceWrite, partial: bool): (errs: seq<FieldError>)
    ensures errs == [] <==> && (!partial ==> w.roomId.Set? && w.name.Set? && w.deviceType.Set?)
                            && (w.roomId.Set? ==> w.roomId.value in db.rooms)
                            && (w.name.Set? ==> !Text.AllSpace(w.name.value))
  {
    PkError("room_id", w.roomId, db.rooms, partial)
    + TextError("name", w.name, partial)
    + RequiredError("device_type", w.deviceType, partial)
  }

  /** Saves a device write onto `d`. */
  function ApplyDeviceWrite(d: Device, w: DeviceWrite, now: Timestamp): (r: Device)
    ensures r.id == d.id && r.createdAt == d.createdAt
    ensures r.lastValue == d.lastValue && r.lastValueRaw == d.lastValueRaw && r.lastUpdatedAt == d.lastUpdatedAt
    ensures r.updatedAt == now
    ensures w.roomId.Keep? ==> r.roomId == d.roomId
    ensures w.roomId.Set? ==> r.roomId == w.roomId.value
    ensures w.name.Set? ==> r.name == Text.Strip(w.name.value)
    ensures w == NoDeviceWrite ==> r == d.(updatedAt := now)
  {
    d.(roomId := w.roomId.Apply(d.roomId), name := StoredText(w.name, d.name),
       deviceType := w.deviceType.Apply(d.deviceType), deviceKind := w.deviceKind.Apply(d.deviceKind),
       signalType := w.signalType.Apply(d.signalType), unit := StoredText(w.unit, d.unit),
       minValue := w.minValue.Apply(d.minValue), maxValue := w.maxValue.Apply(d.maxValue),
       decimalPlaces := w.decimalPlaces.Apply(d.decimalPlaces), isPercentage := w.isPercentage.Apply(d.isPercentage),
       integration := w.integration.Apply(d.integration), externalId := StoredText(w.externalId, d.externalId),
       location := StoredText(w.location, d.location), isOn := w.isOn.Apply(d.isOn),
       positionX := w.positionX.Apply(d.positionX), positionY := w.positionY.Apply(d.positionY),
       config := w.config.Apply(d.config), isActive := w.isActive.Apply(d.isActive),
       updatedAt := now)
  }

  /** The device a valid create payload produces: the model's defaults
      with the sent fields written over them. */
  function BuildDevice(id: DeviceId, w: DeviceWrite, now: Timestamp): (d: Device)
    requires w.roomId.Set? && w.name.Set? && w.deviceType.Set?
    ensures d.id == id && d.roomId == w.roomId.value && d.name == Text.Strip(w.name.value)
    ensures d.deviceType == w.deviceType.value
    ensures d.lastValue.None? && d.lastValueRaw == "" && d.lastUpdatedAt.None?
    ensures d.createdAt == now && d.updatedAt == now
    ensures w.deviceKind.Keep? ==> d.deviceKind == DeviceKind.Sensor
    ensures w.signalType.Keep? ==> d.signalType == Analog
    ensures w.integration.Keep? ==> d.integration == DeviceIntegration.Local
    ensures w.isOn.Keep? ==> !d.isOn
    ensures w.positionX.Keep? ==> d.positionX == 10.0
    ensures w.positionY.Keep? ==> d.positionY == 10.0
    ensures w.decimalPlaces.Keep? ==> d.decimalPlaces == 1
    ensures w.isActive.Keep? ==> d.isActive
  {
    ApplyDeviceWrite(NewDevice(id, w.roomId.value, w.name.value, w.deviceType.value, now), w, now)
  }

  /** Writable endpoint fields. The connector and integration are written
      only as `connector_id` / `integration_id`. */
  datatype EndpointWrite = EndpointWrite(
    device: Patch<DeviceId>, connectorId: Patch<ConnectorId>,
    integrationId: Patch<Option<IntegrationId>>,
    direction: Patch<Direction>, address: Patch<string>,
    scale: Patch<real>, offset: Patch<real>,
    trueValue: Patch<string>, falseValue: Patch<string>,
    isPrimary: Patch<bool>, metadata: Patch<Json.Value>)

  function EndpointWriteErrors(db: Db, w: EndpointWrite, partial: bool): (errs: seq<FieldError>)
    ensures errs == [] <==> && (!partial ==> w.device.Set? && w.connectorId.Set? && w.direction.Set? && w.address.Set?)
                            && (w.device.Set? ==> w.device.value in db.devices)
                            && (w.connectorId.Set? ==> w.connectorId.value in db.connectors)
                            && (w.integrationId.Set? && w.integrationId.value.Some? ==> w.integrationId.value.value in db.integrations)
                            && (w.address.Set? ==> !Text.AllSpace(w.address.value))
  {
    PkError("device", w.device, db.devices, partial)
    + PkError("connector_id", w.connectorId, db.connectors, partial)
    + (if w.integrationId.Set? && w.integrationId.value.Some? && w.integrationId.value.value !in db.integrations
       then [FieldError("integration_id", NoSuchObject(w.integrationId.value.value))] else [])
    + RequiredError("direction", w.direction, partial)
    + TextError("address", w.address, partial)
  }

  function ApplyEndpointWrite(e: DeviceEndpoint, w: EndpointWrite, now: Timestamp): (r: DeviceEndpoint)
    ensures r.id == e.id && r.createdAt == e.createdAt && r.updatedAt == now
    ensures r.connector == w.connectorId.Apply(e.connector)
    ensures r.integration == w.integrationId.Apply(e.integration)
    ensures w.address.Set? ==> r.address == Text.Strip(w.address.value)
  {
    e.(device := w.device.Apply(e.device), connector := w.connectorId.Apply(e.connector),
       integration := w.integrationId.Apply(e.integration), direction := w.direction.Apply(e.direction),
       address := StoredText(w.address, e.address), scale := w.scale.Apply(e.scale),
       offset := w.offset.Apply(e.offset), trueValue := StoredText(w.trueValue, e.trueValue),
       falseValue := StoredText(w.falseValue, e.falseValue), isPrimary := w.isPrimary.Apply(e.isPrimary),
       metadata := w.metadata.Apply(e.metadata), updatedAt := now)
  }

  /** The endpoint a valid create payload produces. */
  function BuildEndpoint(id: EndpointId, w: EndpointWrite, now: Timestamp): (e: DeviceEndpoint)
    requires w.device.Set? && w.connectorId.Set? && w.direction.Set? && w.address.Set?
    ensures e.id == id && e.device == w.device.value && e.connector == w.connectorId.value
    ensures e.direction == w.direction.value && e.address == Text.Strip(w.address.value)
    ensures w.integrationId.Keep? ==> e.integration.None?
    ensures w.scale.Keep? ==> e.scale == 1.0
    ensures w.offset.Keep? ==> e.offset == 0.0
    ensures w.isPrimary.Keep? ==> e.isPrimary
    ensures w.trueValue.Keep? ==> e.trueValue == ""
    ensures w.falseValue.Keep? ==> e.falseValue == ""
  {
    ApplyEndpointWrite(NewEndpoint(id, w.device.value, w.connectorId.value, w.direction.value, w.address.value, now), w, now)
  }

  /** Writable connector fields. `password` is accepted here but never shown;
      the integration is written only as `integration_id`. */
  datatype ConnectorWrite = ConnectorWrite(
    name: Patch<string>, connectorType: Patch<ConnectorType>,
    integrationId: Patch<Option<IntegrationId>>,
    host: Patch<string>, port: Patch<Option<nat>>, username: Patch<string>, password: Patch<string>,
    baseTopic: Patch<string>, basePath: Patch<string>, config: Patch<Json.Value>, isActive: Patch<bool>)

  function ApplyConnectorWrite(c: Connector, w: ConnectorWrite, now: Timestamp): (r: Connector)
    ensures r.id == c.id && r.owner == c.owner && r.createdAt == c.createdAt && r.updatedAt == now
    ensures w.integrationId.Keep? ==> r.integration == c.integration
    ensures w.integrationId.Set? ==> r.integration == w.integrationId.value
    ensures w.password.Set? ==> r.password == Text.Strip(w.password.value)
  {
    c.(name := StoredText(w.name, c.name), connectorType := w.connectorType.Apply(c.connectorType),
       integration := w.integrationId.Apply(c.integration), host := StoredText(w.host, c.host),
       port := w.port.Apply(c.port), username := StoredText(w.username, c.username),
       password := StoredText(w.password, c.password), baseTopic := StoredText(w.baseTopic, c.baseTopic),
       basePath := StoredText(w.basePath, c.basePath), config := w.config.Apply(c.config),
       isActive := w.isActive.Apply(c.isActive), updatedAt := now)
  }
}

=== FILE: store.dfy ===
/** The database the views and the worker read and write, as immutable
    tables. Rooms, devices and the other records are keyed by id; the
    endpoint table is one sequence kept in the endpoint model's declared
    ordering (device, direction, id), so that every query over it sees
    rows in that order. */
module Store {
  import opened Wrappers
  import Text
  import opened Models

  datatype Db = Db(
    users: map<UserId, Account>,
    tokens: map<UserId, string>,
    rooms: map<RoomId, Room>,
    integrations: map<IntegrationId, Integration>,
    connectors: map<ConnectorId, Connector>,
    devices: map<DeviceId, Device>,
    endpoints: seq<DeviceEndpoint>)

  // ---------------------------------------------------------------------
  // Endpoint ordering
  // ---------------------------------------------------------------------

  /** Direction keys compare as strings: "input" sorts before "output". */
  lemma DirectionOrder(a: Direction, b: Direction)
    ensures Text.Less(a.Key(), b.Key()) <==> a == Input && b == Output
  {
    if a == b {
      LessIrreflexive(a.Key());
    } else {
      assert a.Key()[0] != b.Key()[0];
    }
  }

  lemma LessIrreflexive(s: string)
    ensures !Text.Less(s, s)
  {
  }

  /** `a` sorts strictly before `b` under the ordering (device, direction, id). */
  predicate EndpointBefore(a: DeviceEndpoint, b: DeviceEndpoint) {
    || a.device < b.device
    || (a.device == b.device && Text.Less(a.direction.Key(), b.direction.Key()))
    || (a.device == b.device && a.direction == b.direction && a.id < b.id)
  }

  lemma EndpointBeforeTransitive(a: DeviceEndpoint, b: DeviceEndpoint, c: DeviceEndpoint)
    requires EndpointBefore(a, b) && EndpointBefore(b, c)
    ensures EndpointBefore(a, c)
  {
    DirectionOrder(a.direction, b.direction);
    DirectionOrder(b.direction, c.direction);
    DirectionOrder(a.direction, c.direction);
  }

  /** Any two endpoints with different ids are ordered one way or the other. */
  lemma EndpointBeforeTotal(a: DeviceEndpoint, b: DeviceEndpoint)
    requires a.id != b.id
    ensures EndpointBefore(a, b) || EndpointBefore(b, a)
  {
    DirectionOrder(a.direction, b.direction);
    DirectionOrder(b.direction, a.direction);
  }

  predicate Sorted(eps: seq<DeviceEndpoint>) {
    forall i, j :: 0 <= i < j < |eps| ==> EndpointBefore(eps[i], eps[j])
  }

  predicate DistinctIds(eps: seq<DeviceEndpoint>) {
    forall i, j :: 0 <= i < j < |eps| ==> eps[i].id != eps[j].id
  }

  /** In a sorted table, of two rows with the same device and direction
      the earlier has the lower id. */
  lemma EarlierOfSameClassHasLowerId(eps: seq<DeviceEndpoint>, i: nat, j: nat)
    requires Sorted(eps) && i < j < |eps|
    requires eps[i].device == eps[j].device && eps[i].direction == eps[j].direction
    ensures eps[i].id < eps[j].id
  {
    assert EndpointBefore(eps[i], eps[j]);
    LessIrreflexive(eps[i].direction.Key());
  }

  /** Among endpoints sorted by the model ordering that share one device
      and one direction, the first has the lowest id. */
  lemma FirstOfSameClassHasLowestId(eps: seq<DeviceEndpoint>)
    requires Sorted(eps) && |eps| > 0
    requires forall k :: 0 <= k < |eps| ==> eps[k].device == eps[0].device && eps[k].direction == eps[0].direction
    ensures forall k :: 0 < k < |eps| ==> eps[0].id < eps[k].id
  {
    forall k | 0 < k < |eps|
      ensures eps[0].id < eps[k].id
    {
      assert EndpointBefore(eps[0], eps[k]);
      DirectionOrder(eps[0].direction, eps[k].direction);
    }
  }

  /** Adds a new row to the endpoint table at the place the ordering gives it. */
  function InsertEndpoint(eps: seq<DeviceEndpoint>, e: DeviceEndpoint): (r: seq<DeviceEndpoint>)
    ensures multiset(r) == multiset(eps) + multiset{e}
    ensures forall x :: x in r <==> x in eps || x == e
  {
    if |eps| == 0 then [e]
    else if EndpointBefore(e, eps[0]) then [e] + eps
    else
      assert eps == [eps[0]] + eps[1..];
      [eps[0]] + InsertEndpoint(eps[1..], e)
  }

  /** Insertion keeps the table in order. */
  lemma {:induction false} InsertKeepsOrder(eps: seq<DeviceEndpoint>, e: DeviceEndpoint)
    requires Sorted(eps)
    requires forall k :: 0 <= k < |eps| ==> eps[k].id != e.id
    ensures Sorted(InsertEndpoint(eps, e))
  {
    if |eps| == 0 {
    } else if EndpointBefore(e, eps[0]) {
      forall k | 0 < k < |eps| ensures EndpointBefore(e, eps[k]) {
        EndpointBeforeTransitive(e, eps[0], eps[k]);
      }
    } else {
      EndpointBeforeTotal(e, eps[0]);
      InsertKeepsOrder(eps[1..], e);
      var rest := InsertEndpoint(eps[1..], e);
      forall k | 0 <= k < |rest| ensures EndpointBefore(eps[0], rest[k]) {
        assert rest[k] in rest;
      }
    }
  }

  /** Insertion of a row with a fresh id keeps ids distinct. */
  lemma {:induction false} InsertKeepsDistinctIds(eps: seq<DeviceEndpoint>, e: DeviceEndpoint)
    requires DistinctIds(eps)
    requires forall k :: 0 <= k < |eps| ==> eps[k].id != e.id
    ensures DistinctIds(InsertEndpoint(eps, e))
  {
    if |eps| == 0 {
    } else if EndpointBefore(e, eps[0]) {
    } else {
      InsertKeepsDistinctIds(eps[1..], e);
      var rest := InsertEndpoint(eps[1..], e);
      forall k | 0 <= k < |rest| ensures rest[k].id != eps[0].id {
        assert rest[k] in rest;
        if rest[k] != e {
          var m :| 0 <= m < |eps| - 1 && eps[1..][m] == rest[k];
          assert eps[m + 1] == rest[k];
        }
      }
    }
  }

  /** The rows of `eps` that satisfy `keep`, in table order (`.filter(...)`). */
  function Filter(eps: seq<DeviceEndpoint>, keep: DeviceEndpoint -> bool): (r: seq<DeviceEndpoint>)
    ensures forall e :: e in r <==> e in eps && keep(e)
    ensures |r| <= |eps|
    ensures Sorted(eps) ==> Sorted(r)
  {
    if |eps| == 0 then []
    else
      var rest := Filter(eps[..|eps| - 1], keep);
      var last := eps[|eps| - 1];
      assert eps == eps[..|eps| - 1] + [last];
      if keep(last) then
        assert Sorted(eps) ==> forall k :: 0 <= k < |rest| ==> EndpointBefore(rest[k], last) by {
          if Sorted(eps) {
            forall k | 0 <= k < |rest| ensures EndpointBefore(rest[k], last) {
              assert rest[k] in eps[..|eps| - 1];
            }
          }
        }
        rest + [last]
      else rest
  }

  /** `device.endpoints.all()`: the endpoints bound to one device. */
  function EndpointsOf(db: Db, device: DeviceId): (r: seq<DeviceEndpoint>)
    ensures forall e :: e in r <==> e in db.endpoints && e.device == device
  {
    Filter(db.endpoints, (e: DeviceEndpoint) => e.device == device)
  }

  // ---------------------------------------------------------------------
  // Integrity of the tables
  // ---------------------------------------------------------------------

  /** No two rooms of one owner share a slug (`unique_together = ("owner", "slug")`). */
  predicate UniqueSlugs(rooms: map<RoomId, Room>) {
    forall a, b :: a in rooms && b in rooms && a != b && rooms[a].owner == rooms[b].owner
      ==> rooms[a].slug != rooms[b].slug
  }

  /** What the database guarantees: keys match ids, foreign keys resolve,
      the endpoint table is in order with distinct ids, and slugs are unique
      per owner. */
  predicate Consistent(db: Db) {
    && (forall u :: u in db.users ==> db.users[u].id == u)
    && (forall r :: r in db.rooms ==> db.rooms[r].id == r && db.rooms[r].owner in db.users)
    && (forall i :: i in db.integrations ==> db.integrations[i].id == i && db.integrations[i].owner in db.users)
    && (forall c :: c in db.connectors ==>
          && db.connectors[c].id == c && db.connectors[c].owner in db.users
          && (db.connectors[c].integration.Some? ==> db.connectors[c].integration.value in db.integrations))
    && (forall d :: d in db.devices ==> db.devices[d].id == d && db.devices[d].roomId in db.rooms)
    && Sorted(db.endpoints) && DistinctIds(db.endpoints)
    && (forall k :: 0 <= k < |db.endpoints| ==>
          && db.endpoints[k].device in db.devices && db.endpoints[k].connector in db.connectors
          && (db.endpoints[k].integration.Some? ==> db.endpoints[k].integration.value in db.integrations))
    && UniqueSlugs(db.rooms)
  }

  // ---------------------------------------------------------------------
  // Per-user querysets
  // ---------------------------------------------------------------------

  /** The owner of the room a device sits in, if both rows exist. */
  function DeviceOwner(db: Db, device: DeviceId): Option<UserId> {
    if device in db.devices && db.devices[device].roomId in db.rooms
    then Some(db.rooms[db.devices[device].roomId].owner)
    else None
  }

  /** `Device.objects.filter(room__owner=user)` contains `device`. */
  predicate DeviceVisible(db: Db, user: UserId, device: DeviceId) {
    DeviceOwner(db, device) == Some(user)
  }

  /** `Room.objects.filter(owner=user)` contains `room`. */
  predicate RoomVisible(db: Db, user: UserId, room: RoomId) {
    room in db.rooms && db.rooms[room].owner == user
  }
}

=== FILE: text.dfy ===
/** The few Python string behaviours the backend relies on: `str.lower()`, `str.strip()`,
    `str.startswith()`, `str(int)` and string ordering. */
module Text {

  /** Lower-cases one character. Only ASCII letters are mapped; no other
      character lower-cases to an ASCII letter used by this model. */
  function LowerChar(c: char): char {
    if 'A' <= c <= 'Z' then (c as int + 32) as char else c
  }

  function Lower(s: string): (r: string)
    ensures |r| == |s|
    ensures forall i :: 0 <= i < |s| ==> r[i] == LowerChar(s[i])
  {
    if |s| == 0 then "" else [LowerChar(s[0])] + Lower(s[1..])
  }

  /** Python's `str.isspace()` for one character, which is also the set
      `str.strip()` removes: ASCII whitespace, the four ASCII separators,
      and the Unicode spaces and line/paragraph separators. */
  predicate IsSpace(c: char) {
    var n := c as int;
    || n == 32 || 9 <= n <= 13 || 28 <= n <= 31 || n == 0x85 || n == 0xA0 || n == 0x1680
    || 0x2000 <= n <= 0x200A || n == 0x2028 || n == 0x2029 || n == 0x202F || n == 0x205F
    || n == 0x3000
  }

  /** Every character is whitespace (the empty string included). */
  predicate AllSpace(s: string) {
    forall i :: 0 <= i < |s| ==> IsSpace(s[i])
  }

  function TrimStart(s: string): (r: string)
    ensures |r| <= |s| && r == s[|s| - |r|..]
    ensures |r| > 0 ==> !IsSpace(r[0])
    ensures AllSpace(s[..|s| - |r|])
  {
    if |s| > 0 && IsSpace(s[0]) then TrimStart(s[1..]) else s
  }

  function TrimEnd(s: string): (r: string)
    ensures |r| <= |s| && r == s[..|r|]
    ensures |r| > 0 ==> !IsSpace(r[|r| - 1])
    ensures AllSpace(s[|r|..])
  {
    if |s| > 0 && IsSpace(s[|s| - 1]) then TrimEnd(s[..|s| - 1]) else s
  }

  /** `str.strip()`: `s` without its leading and trailing whitespace
      (`StripIsTrimmedInfix` states where the result sits in `s`). */
  function Strip(s: string): (r: string)
    ensures |r| <= |s|
    ensures |r| > 0 ==> !IsSpace(r[0]) && !IsSpace(r[|r| - 1])
    ensures r == "" <==> AllSpace(s)
  {
    TrimEnd(TrimStart(s))
  }

  /** The stripped text is the part of `s` between a run of leading and a
      run of trailing whitespace. */
  lemma StripIsTrimmedInfix(s: string)
    ensures var r := Strip(s);
            exists a :: 0 <= a <= |s| - |r| && r == s[a..a + |r|]
                        && AllSpace(s[..a]) && AllSpace(s[a + |r|..])
  {
    var t := TrimStart(s);
    TrimsAreInfix(s, t, TrimEnd(t));
  }

  lemma TrimsAreInfix(s: string, t: string, r: string)
    requires |t| <= |s| && t == s[|s| - |t|..] && AllSpace(s[..|s| - |t|])
    requires |r| <= |t| && r == t[..|r|] && AllSpace(t[|r|..])
    ensures exists a :: 0 <= a <= |s| - |r| && r == s[a..a + |r|]
                        && AllSpace(s[..a]) && AllSpace(s[a + |r|..])
  {
    var a := |s| - |t|;
    assert r == s[a..a + |r|];
    assert s[a + |r|..] == t[|r|..];
  }

  /** Stripping twice is stripping once. */
  lemma StripIdempotent(s: string)
    ensures Strip(Strip(s)) == Strip(s)
  {
  }

  predicate StartsWith(s: string, prefix: string) {
    |prefix| <= |s| && s[..|prefix|] == prefix
  }

  /** Python's `<` on strings: lexicographic by code point. */
  predicate Less(a: string, b: string) {
    if |a| == 0 then |b| > 0
    else if |b| == 0 then false
    else a[0] < b[0] || (a[0] == b[0] && Less(a[1..], b[1..]))
  }

  function Digit(d: nat): (c: char)
    requires d < 10
    ensures '0' <= c <= '9'
  {
    (48 + d) as char
  }

  /** `str(n)` for a non-negative Python int: decimal, no leading zeros. */
  function NatText(n: nat): (r: string)
    ensures 1 <= |r|
    ensures forall i :: 0 <= i < |r| ==> '0' <= r[i] <= '9'
    ensures |r| == 1 <==> n < 10
    ensures n >= 10 ==> r[0] != '0'
  {
    if n < 10 then [Digit(n)] else NatText(n / 10) + [Digit(n % 10)]
  }

  /** `str(i)` for any Python int. */
  function IntText(i: int): (r: string)
    ensures i < 0 <==> (|r| > 0 && r[0] == '-')
  {
    if i < 0 then "-" + NatText(-i) else NatText(i)
  }

  /** Printed ints have no letters, so lower-casing leaves them alone. */
  lemma LowerIntText(i: int)
    ensures Lower(IntText(i)) == IntText(i)
  {
    var s := IntText(i);
    forall k | 0 <= k < |s| ensures LowerChar(s[k]) == s[k] {
      if i < 0 && k > 0 {
        assert s[k] == NatText(-i)[k - 1];
      }
    }
  }

  /** Distinct numbers print differently. */
  lemma {:induction false} NatTextInjective(a: nat, b: nat)
    requires NatText(a) == NatText(b)
    ensures a == b
  {
    if a >= 10 && b >= 10 {
      var ta, tb := NatText(a), NatText(b);
      assert ta == NatText(a / 10) + [Digit(a % 10)];
      assert tb == NatText(b / 10) + [Digit(b % 10)];
      assert NatText(a / 10) == ta[..|ta| - 1];
      assert NatText(b / 10) == tb[..|tb| - 1];
      NatTextInjective(a / 10, b / 10);
      assert Digit(a % 10) == ta[|ta| - 1] == Digit(b % 10);
    }
  }

  /** `str(i) == "1"` holds for exactly one int. */
  lemma IntTextIsOne(i: int)
    ensures IntText(i) == "1" <==> i == 1
  {
    if IntText(i) == "1" {
      assert i >= 0;
      assert NatText(i) == NatText(1);
      NatTextInjective(i, 1);
    }
  }
}

=== FILE: views.dfy ===
/** The account and create/update views (`views.py`): `register`, room
    creation and update, and the ownership checks of device and endpoint
    creation. Each view takes the database and returns the database after
    the request together with its answer. */
module Views {
  import opened Wrappers
  import Text
  import Json
  import opened Models
  import opened Store
  import opened Serializers
  import Permissions

  /** How a request can fail. */
  datatype ApiError =
    | BadRequest(detail: string)       // a view's own 400 answer
    | Invalid(errors: seq<FieldError>) // serializer validation, 400
    | Forbidden(detail: string)        // a permission refusal
    | NotFound                         // the object is not in the user's list
    | IntegrityError                   // a database constraint fired; nothing handles it
    | Unhandled                        // another exception escaped the view
  {
    function Status(): int {
      match this
      case BadRequest(_) => 400
      case Invalid(_) => 400
      case Forbidden(_) => 403
      case NotFound => 404
      case IntegrityError => 500
      case Unhandled => 500
    }
  }

  /** The database after a request, and the request's answer. */
  datatype Reply<T> = Reply(db: Db, result: Result<T, ApiError>)

  // ---------------------------------------------------------------------
  // register
  // ---------------------------------------------------------------------

  const CredentialsRequired := "username and password are required"
  const UsernameExists := "username already exists"

  predicate UsernameTaken(db: Db, username: string) {
    exists u :: u in db.users && db.users[u].username == username
  }

  /** `not username or not password`: both present and non-empty. */
  predicate CredentialsGiven(username: Option<string>, password: Option<string>) {
    username.Some? && username.value != "" && password.Some? && password.value != ""
  }

  /** The 201 answer: the user's token and profile. */
  datatype Registered = Registered(token: string, user: UserOut)

  /** `register`. `username`/`password` are the request fields, `None` when
      absent or null; `normalize` is the account model's username
      normalization (Unicode NFKC), which `create_user` applies but the
      existence check before it does not; `newId` is the id the database
      assigns and `tokenKey` the key a fresh token would get. */
  function Register(db: Db, username: Option<string>, password: Option<string>,
                    normalize: string -> string, newId: UserId, tokenKey: string): (r: Reply<Registered>)
    requires newId !in db.users
    ensures r.result.Err? ==> r.db == db
    ensures r.result.Err? ==> r.result.error.Status() == 400 || r.result.error == IntegrityError
    ensures !CredentialsGiven(username, password) ==> r.result == Err(BadRequest(CredentialsRequired))
    ensures CredentialsGiven(username, password) && UsernameTaken(db, username.value)
            ==> r.result == Err(BadRequest(UsernameExists))
    ensures CredentialsGiven(username, password) && !UsernameTaken(db, username.value)
            && UsernameTaken(db, normalize(username.value))
            ==> r.result == Err(IntegrityError)
    ensures r.result.Ok? <==> && CredentialsGiven(username, password)
                              && !UsernameTaken(db, username.value)
                              && !UsernameTaken(db, normalize(username.value))
    ensures r.result.Ok? ==> && r.db == db.(users := r.db.users, tokens := r.db.tokens)
                             && newId in r.db.users && r.db.users == db.users[newId := r.db.users[newId]]
                             && r.db.users[newId].username == normalize(username.value)
                             && r.db.tokens == db.tokens[newId := r.result.value.token]
                             && (newId in db.tokens ==> r.result.value.token == db.tokens[newId])
                             && r.result.value.user.id == newId
                             && r.result.value.user.username == normalize(username.value)
  {
    if !CredentialsGiven(username, password) then
      Reply(db, Err(BadRequest(CredentialsRequired)))
    else if UsernameTaken(db, username.value) then
      Reply(db, Err(BadRequest(UsernameExists)))
    else if UsernameTaken(db, normalize(username.value)) then
      // create_user stores the normalized name, which the unique index refuses.
      Reply(db, Err(IntegrityError))
    else
      var account := Account(newId, normalize(username.value), password.value, "", "", "");
      // Token.objects.get_or_create(user=user)
      var token := if newId in db.tokens then db.tokens[newId] else tokenKey;
      var db' := db.(users := db.users[newId := account], tokens := db.tokens[newId := token]);
      Reply(db', Ok(Registered(token, UserOut(newId, account.username, "", "", ""))))
  }

  // ---------------------------------------------------------------------
  // Rooms
  // ---------------------------------------------------------------------

  /** Another room of `owner`, other than `except`, already has `slug`. */
  predicate SlugTaken(rooms: map<RoomId, Room>, owner: UserId, slug: string, except: RoomId) {
    exists k :: k in rooms && k != except && rooms[k].owner == owner && rooms[k].slug == slug
  }

  /** Saving a room under `k` whose slug no other room of its owner has
      keeps slugs unique per owner. */
  lemma FreeSlugKeepsUnique(rooms: map<RoomId, Room>, k: RoomId, room: Room)
    requires !SlugTaken(rooms, room.owner, room.slug, k)
    ensures UniqueSlugs(rooms) ==> UniqueSlugs(rooms[k := room])
  {
  }

  /** `RoomViewSet.create`: the room is saved with the requesting user as
      owner; a duplicate (owner, slug) is refused by the database. */
  function CreateRoom(db: Db, user: UserId, w: RoomWrite, newId: RoomId, now: Timestamp): (r: Reply<Room>)
    requires newId !in db.rooms
    ensures r.result.Err? ==> r.db == db
    ensures r.result.Ok? <==> RoomWriteErrors(w, false) == []
                              && !SlugTaken(db.rooms, user, Text.Strip(w.slug.value), newId)
    ensures r.result.Ok? ==> && r.db == db.(rooms := db.rooms[newId := r.result.value])
                             && r.result.value.owner == user && r.result.value.id == newId
                             && r.result.value.slug == Text.Strip(w.slug.value)
    ensures r.result.Ok? ==> r.result.value == ApplyRoomWrite(NewRoom(newId, user, w.name.value, w.slug.value, now), w, now)
    ensures r.result.Ok? ==> var room := r.result.value;
                             && room.name == Text.Strip(w.name.value)
                             && room.description == (if w.description.Set? then Text.Strip(w.description.value) else "")
                             && room.isActive == (w.isActive.Set? ==> w.isActive.value)
                             && room.backgroundImage == (if w.backgroundImage.Set? then w.backgroundImage.value else None)
                             && room.backgroundImageUrl == "" && room.createdAt == now && room.updatedAt == now
    ensures UniqueSlugs(db.rooms) ==> UniqueSlugs(r.db.rooms)
  {
    var errs := RoomWriteErrors(w, false);
    if errs != [] then Reply(db, Err(Invalid(errs)))
    else
      assert w.name.Set? && w.slug.Set?;
      var room := ApplyRoomWrite(NewRoom(newId, user, w.name.value, w.slug.value, now), w, now);
      if SlugTaken(db.rooms, user, room.slug, newId) then Reply(db, Err(IntegrityError))
      else
        FreeSlugKeepsUnique(db.rooms, newId, room);
        Reply(db.(rooms := db.rooms[newId := room]), Ok(room))
  }

  /** `RoomViewSet.update` (PUT, `partial` false) and `partial_update`
      (PATCH, `partial` true): only rooms of the requesting user can be
      found; owner, id and creation time never change. */
  function UpdateRoom(db: Db, user: UserId, id: RoomId, w: RoomWrite, partial: bool, now: Timestamp): (r: Reply<Room>)
    ensures r.result.Err? ==> r.db == db
    ensures !RoomVisible(db, user, id) ==> r.result == Err(NotFound)
    ensures RoomVisible(db, user, id) ==>
              (r.result == Err(Invalid(RoomWriteErrors(w, partial))) <==> RoomWriteErrors(w, partial) != [])
    ensures r.result.Ok? ==> && RoomVisible(db, user, id)
                             && r.db == db.(rooms := db.rooms[id := r.result.value])
                             && r.result.value.owner == db.rooms[id].owner
                             && r.result.value.id == db.rooms[id].id
                             && r.result.value.createdAt == db.rooms[id].createdAt
    ensures r.result.Ok? ==> r.result.value == ApplyRoomWrite(db.rooms[id], w, now)
    ensures RoomVisible(db, user, id) && RoomWriteErrors(w, partial) == [] ==>
              (r.result.Ok? <==> !SlugTaken(db.rooms, db.rooms[id].owner, ApplyRoomWrite(db.rooms[id], w, now).slug, id))
    ensures RoomVisible(db, user, id) && RoomWriteErrors(w, partial) == [] && r.result.Err? ==>
              r.result.error == IntegrityError
    ensures !(r.result.Err? && r.result.error.Forbidden?)
    ensures UniqueSlugs(db.rooms) ==> UniqueSlugs(r.db.rooms)
  {
    if !RoomVisible(db, user, id) then Reply(db, Err(NotFound))
    else
      Permissions.VisibleRoomIsPermitted(db, user, id);
      if !Permissions.HasObjectPermission(db, user, Permissions.RoomObj(db.rooms[id])) then
        Reply(db, Err(Forbidden("You do not have permission to perform this action.")))
      else
        var errs := RoomWriteErrors(w, partial);
        if errs != [] then Reply(db, Err(Invalid(errs)))
        else
          var room := ApplyRoomWrite(db.rooms[id], w, now);
          if SlugTaken(db.rooms, room.owner, room.slug, id) then Reply(db, Err(IntegrityError))
          else
            FreeSlugKeepsUnique(db.rooms, id, room);
            Reply(db.(rooms := db.rooms[id := room]), Ok(room))
  }

  // ---------------------------------------------------------------------
  // Devices
  // ---------------------------------------------------------------------

  const NotRoomOwner := "You do not own this room"

  /** `DeviceViewSet.create` with its `perform_create` check: a device can
      only be created in a room the requesting user owns. */
  function CreateDevice(db: Db, user: UserId, w: DeviceWrite, newId: DeviceId, now: Timestamp): (r: Reply<Device>)
    requires newId !in db.devices
    ensures r.result.Err? ==> r.db == db
    ensures DeviceWriteErrors(db, w, false) != [] ==> r.result.Err? && r.result.error.Invalid?
    ensures r.result.Ok? <==> DeviceWriteErrors(db, w, false) == [] && RoomVisible(db, user, w.roomId.value)
    ensures DeviceWriteErrors(db, w, false) == [] && !RoomVisible(db, user, w.roomId.value)
            ==> r.result == Err(Forbidden(NotRoomOwner))
    ensures r.result.Ok? ==> && r.db == db.(devices := db.devices[newId := r.result.value])
                             && DeviceVisible(r.db, user, newId)
                             && r.result.value == BuildDevice(newId, w, now)
  {
    var errs := DeviceWriteErrors(db, w, false);
    if errs != [] then Reply(db, Err(Invalid(errs)))
    else
      assert w.roomId.Set? && w.name.Set? && w.deviceType.Set? && w.roomId.value in db.rooms;
      var room := db.rooms[w.roomId.value];
      if room.owner != user then Reply(db, Err(Forbidden(NotRoomOwner)))
      else
        var d := BuildDevice(newId, w, now);
        var db' := db.(devices := db.devices[newId := d]);
        assert DeviceOwner(db', newId) == Some(user);
        Reply(db', Ok(d))
  }

  /** `DeviceViewSet.update` / `partial_update` as the source writes them:
      the device must be the user's, but the room it is moved to is not
      checked. */
  function UpdateDeviceAsWritten(db: Db, user: UserId, id: DeviceId, w: DeviceWrite, partial: bool, now: Timestamp): (r: Reply<Device>)
    ensures r.result.Err? ==> r.db == db
    ensures !DeviceVisible(db, user, id) ==> r.result == Err(NotFound)
    ensures DeviceVisible(db, user, id) ==>
              (r.result.Ok? <==> DeviceWriteErrors(db, w, partial) == [])
    ensures r.result.Ok? ==> && r.db == db.(devices := db.devices[id := r.result.value])
                             && r.result.value.id == db.devices[id].id
                             && r.result.value == ApplyDeviceWrite(db.devices[id], w, now)
  {
    if !DeviceVisible(db, user, id) then Reply(db, Err(NotFound))
    else
      var errs := DeviceWriteErrors(db, w, partial);
      if errs != [] then Reply(db, Err(Invalid(errs)))
      else
        var d := ApplyDeviceWrite(db.devices[id], w, now);
        Reply(db.(devices := db.devices[id := d]), Ok(d))
  }

  /** A user can hand their device to a room of someone else. */
  lemma UpdateMovesDeviceToForeignRoom()
    ensures var u1, u2 := 1, 2;
            var r1 := NewRoom(1, u1, "Home", "home", 0);
            var r2 := NewRoom(2, u2, "Other", "other", 0);
            var d := NewDevice(1, 1, "Lamp", Light, 0);
            var users := map[1 := Account(1, "ann", "", "", "", ""), 2 := Account(2, "bob", "", "", "", "")];
            var db := Db(users, map[], map[1 := r1, 2 := r2], map[], map[], map[1 := d], []);
            var r := UpdateDeviceAsWritten(db, u1, 1, NoDeviceWrite.(roomId := Set(2)), true, 1);
            r.result.Ok? && DeviceVisible(r.db, u2, 1) && !DeviceVisible(r.db, u1, 1)
  {
  }

  /** `DeviceViewSet.update` / `partial_update` with the check
      `perform_create` makes applied to a new `room_id` as well. */
  function UpdateDevice(db: Db, user: UserId, id: DeviceId, w: DeviceWrite, partial: bool, now: Timestamp): (r: Reply<Device>)
    ensures r.result.Err? ==> r.db == db
    ensures !DeviceVisible(db, user, id) ==> r.result == Err(NotFound)
    ensures r.result.Ok? ==> && r.db == db.(devices := db.devices[id := r.result.value])
                             && r.result.value.id == db.devices[id].id
                             && r.result.value == ApplyDeviceWrite(db.devices[id], w, now)
                             && DeviceVisible(r.db, user, id)
    ensures DeviceVisible(db, user, id) ==>
              (r.result.Ok? <==> && DeviceWriteErrors(db, w, partial) == []
                                 && (w.roomId.Set? ==> RoomVisible(db, user, w.roomId.value)))
    ensures DeviceVisible(db, user, id) && DeviceWriteErrors(db, w, partial) == []
            && w.roomId.Set? && !RoomVisible(db, user, w.roomId.value)
            ==> r.result == Err(Forbidden(NotRoomOwner))
  {
    if !DeviceVisible(db, user, id) then Reply(db, Err(NotFound))
    else
      var errs := DeviceWriteErrors(db, w, partial);
      if errs != [] then Reply(db, Err(Invalid(errs)))
      else if w.roomId.Set? && !RoomVisible(db, user, w.roomId.value) then
        Reply(db, Err(Forbidden(NotRoomOwner)))
      else
        var d := ApplyDeviceWrite(db.devices[id], w, now);
        Reply(db.(devices := db.devices[id := d]), Ok(d))
  }

  // ---------------------------------------------------------------------
  // Endpoints
  // ---------------------------------------------------------------------

  const NotDeviceOwner := "You do not own this device/room"
  const NotConnectorOwner := "You do not own this connector"
  const NotIntegrationOwner := "You do not own this integration"

  /** The ownership checks of `DeviceEndpointViewSet.perform_create`, in
      order: the device's room, the connector, then the integration if one
      is given. */
  function EndpointOwnershipError(db: Db, user: UserId, w: EndpointWrite): (r: Option<ApiError>)
    requires EndpointWriteErrors(db, w, false) == []
    ensures r.None? <==> && DeviceVisible(db, user, w.device.value)
                         && db.connectors[w.connectorId.value].owner == user
                         && (w.integrationId.Set? && w.integrationId.value.Some? ==>
                               db.integrations[w.integrationId.value.value].owner == user)
    ensures !DeviceVisible(db, user, w.device.value) ==> r == Some(Forbidden(NotDeviceOwner))
    ensures DeviceVisible(db, user, w.device.value) && db.connectors[w.connectorId.value].owner != user
            ==> r == Some(Forbidden(NotConnectorOwner))
    ensures && DeviceVisible(db, user, w.device.value) && db.connectors[w.connectorId.value].owner == user
            && w.integrationId.Set? && w.integrationId.value.Some?
            && db.integrations[w.integrationId.value.value].owner != user
            ==> r == Some(Forbidden(NotIntegrationOwner))
  {
    if !DeviceVisible(db, user, w.device.value) then Some(Forbidden(NotDeviceOwner))
    else if db.connectors[w.connectorId.value].owner != user then Some(Forbidden(NotConnectorOwner))
    else if w.integrationId.Set? && w.integrationId.value.Some?
            && db.integrations[w.integrationId.value.value].owner != user then
      Some(Forbidden(NotIntegrationOwner))
    else None
  }

  /** `DeviceEndpointViewSet.create`: the new endpoint is saved only when
      the user owns everything it binds together. */
  function CreateEndpoint(db: Db, user: UserId, w: EndpointWrite, newId: EndpointId, now: Timestamp): (r: Reply<DeviceEndpoint>)
    requires Sorted(db.endpoints) && DistinctIds(db.endpoints)
    requires forall k :: 0 <= k < |db.endpoints| ==> db.endpoints[k].id != newId
    ensures r.result.Err? ==> r.db == db
    ensures r.result.Ok? <==> EndpointWriteErrors(db, w, false) == [] && EndpointOwnershipError(db, user, w).None?
    ensures r.result.Ok? ==> && multiset(r.db.endpoints) == multiset(db.endpoints) + multiset{r.result.value}
                             && Sorted(r.db.endpoints) && DistinctIds(r.db.endpoints)
                             && r.result.value.id == newId
                             && DeviceVisible(db, user, r.result.value.device)
                             && r.db == db.(endpoints := r.db.endpoints)
                             && r.result.value == BuildEndpoint(newId, w, now)
  {
    var errs := EndpointWriteErrors(db, w, false);
    if errs != [] then Reply(db, Err(Invalid(errs)))
    else
      match EndpointOwnershipError(db, user, w)
      case Some(e) => Reply(db, Err(e))
      case None =>
        var e := BuildEndpoint(newId, w, now);
        InsertKeepsOrder(db.endpoints, e);
        InsertKeepsDistinctIds(db.endpoints, e);
        Reply(db.(endpoints := InsertEndpoint(db.endpoints, e)), Ok(e))
  }
}

=== FILE: wrappers.dfy ===
/** Failure-compatible wrappers shared by the whole model. */
module Wrappers {

  /** A value that may be absent (Python's `None`). */
  datatype Option<+T> = None | Some(value: T) {

    predicate IsFailure() {
      None?
    }

    function PropagateFailure<U>(): Option<U>
      requires None?
    {
      None
    }

    function Extract(): T
      requires Some?
    {
      value
    }

    /** The value, or `default` when absent. */
    function GetOr(default: T): T {
      match this
      case Some(v) => v
      case None => default
    }
  }

  /** Either a value or an error. */
  datatype Result<+T, +E> = Ok(value: T) | Err(error: E) {

    predicate IsFailure() {
      Err?
    }

    function PropagateFailure<U>(): Result<U, E>
      requires Err?
    {
      Err(error)
    }

    function Extract(): T
      requires Ok?
    {
      value
    }
  }
}
